=== FILE: README.md ===
# IndieShots server core in Dafny

This project models the decision logic of the IndieShots server. IndieShots
turns screenplays into shot lists and storyboards. Free and pro accounts
differ in their limits, pro is bought through the PayU gateway, and deleted
accounts are swept away by a background job. Every collaborator the server
calls is an input of the model: the store, Firebase, the promo-code service,
the payment ledger, the scene extractor, the AI generator and the quota
manager. Collaborators
appear as oracle answers or as injected failures, so each handler is a pure
function from (state, request, answers) to (new state, response).

| module | file | models |
|---|---|---|
| `JsValues` | js_values.dfy | JavaScript conventions used by the handlers. These are `undefined`, falsy defaults (`a \|\| b`), the first-occurrence-only `String.replace`, `startsWith`, and integers printed in decimal. |
| `Json` | json.dfy | JSON values and their truthiness, plus `JSON.stringify` (section 25.5.2 of ECMA-262) for integer-valued data. |
| `UriEncoding` | uri_encoding.dfy | `encodeURIComponent` (section 19.2.6.5 of ECMA-262): UTF-8 percent-encoding, with a decoder as its reading partner. |
| `Login` | login.dfy | The Firebase login handler. It covers the ban check, the derived user id, the default limits, the demo and promo-code tier overrides, and the rule that pro means unlimited. |
| `Scenes` | scenes.dfy | The scene and shot routes. They cover ownership, the scene cache, the free-tier clamp to 5 shots, record defaulting, delete-then-create of a scene's shots, the all-shots listing and usage statistics. |
| `Payment` | payment.dfy | The payment routes. `/create` validation, then the `/success` callback as a transition on (ledger, users), then the `/failure` redirect. |
| `Cleanup` | cleanup.dfy | The scheduled-deletion sweep. It is a fold over the pending accounts that produces a trace of store and identity-provider calls. |
| `Server` | server.dfy | The request-log line of the logging middleware, and the status and message defaults of the global error handler. |

Two results of the model:

- The email-derived id replaces only the first `@` and then only the first
  `.`, so `x.y@d` and `x@y.d` both become `x_y_d`
  (`Login.DerivedIdCollision`). When the provider gives no id, two accounts
  share one id and, with it, one ban entry.
- A success callback writes the ledger before upgrading the user. If the
  upgrade write fails, the payment is on the ledger but the user record is
  unchanged, and a replay without store faults answers "already processed"
  and does not upgrade (`Payment.FailedUpgradeNotRetried`).

The shot clamp compares the tier name with `'free'` and cuts to a literal 5;
it does not read `maxShotsPerScene` from the token (scenes.ts:141-144). So
any other tier name is never clamped, including a tier granted by a promo
code (`Scenes.ApplyTierLimit`).

## Model

| member | source | states |
|---|---|---|
| `JsValues.ReplaceFirstPositions` | indieshots-07-25/server/controllers/firebaseAuthController.ts:34 | `String.replace` with a string pattern changes exactly the first occurrence and leaves every other position alone |
| `JsValues.ReplaceFirstCounts` | indieshots-07-25/server/controllers/firebaseAuthController.ts:34 | one replacement removes one occurrence of the pattern and adds one of the replacement, and changes no other character's count |
| `JsValues.IntToStringRoundTrip` | indieshots-07-25/server/routes/freshPayment.ts:83 | `user.id.toString()` is a decimal that parses back to the id |
| `JsValues.IntToStringInjective` | indieshots-07-25/server/routes/freshPayment.ts:164 | distinct numeric ids give distinct decimal texts |
| `Login.DerivedId` | indieshots-07-25/server/controllers/firebaseAuthController.ts:34 | a truthy provider id is the id; otherwise the id is the email rewritten, with the same length |
| `Login.DerivedIdCounts` | indieshots-07-25/server/controllers/firebaseAuthController.ts:60 | the derived id has one `@` fewer and one `.` fewer than the email (when present), and every other character except `_` keeps its count |
| `Login.DerivedIdLocalDot` | indieshots-07-25/server/controllers/firebaseAuthController.ts:60 | when the local part has a dot, only that first dot is rewritten and the domain keeps all its dots |
| `Login.DerivedIdDomainDot` | indieshots-07-25/server/controllers/firebaseAuthController.ts:60 | with no dot before the `@`, the first dot of the domain is rewritten |
| `Login.DerivedIdCollision` | indieshots-07-25/server/controllers/firebaseAuthController.ts:34 | two different emails, `x.y@d` and `x@y.d`, derive the same id |
| `Login.Redeem` | indieshots-07-25/server/controllers/firebaseAuthController.ts:82-110 | the code is validated with the client address (falling back to `unknown`); apply is called only for a valid code and carries the derived id; the tier is the validated tier only when apply succeeds and a tier is given, else `free`; a throwing service call propagates |
| `Login.Issue` | indieshots-07-25/server/controllers/firebaseAuthController.ts:112-164 | the token and the response carry the same id, email, tier and limits; `pro` is unlimited; any other tier keeps the free limits (0 used, 10 pages, 5 shots, no storyboards) |
| `Login.FirebaseLogin` | indieshots-07-25/server/controllers/firebaseAuthController.ts:33-169 | a missing id source is a 500; a ban is a 403 with `ACCOUNT_PERMANENTLY_DELETED` before any other check; no email is a 400; no token outside development is a 400; the promo service is called only for an admitted non-demo account with a coupon; an admitted request gets a token exactly when it is the demo account, has no coupon, or the promo step does not throw, and otherwise a 500; a plain login gets the free limits and makes no promo call; every issued token agrees with the body and keeps the tier invariant |
| `Login.GrantedTier` | indieshots-07-25/server/controllers/firebaseAuthController.ts:76-112 | the granted tier is `pro` for the demo email, otherwise the tier of a valid and applied code, otherwise `free` |
| `Login.BanDominates` | indieshots-07-25/server/controllers/firebaseAuthController.ts:33-42 | for a banned account the outcome does not depend on the token, coupon, mode or promo answers, and no token is issued |
| `Login.BannedEmailBlocked` | indieshots-07-25/server/controllers/firebaseAuthController.ts:36 | a banned email is rejected whatever provider id comes with it |
| `Login.DemoIgnoresCoupon` | indieshots-07-25/server/controllers/firebaseAuthController.ts:77-82 | the demo account gets `pro`, makes no promo call, and its outcome does not depend on the coupon or the promo answers |
| `Login.InvalidCodeNotApplied` | indieshots-07-25/server/controllers/firebaseAuthController.ts:91-109 | an invalid code makes exactly one (validate) call and leaves the account `free` with 10 pages |
| `Scenes.ShotsFor` | indieshots-07-25/server/routes/scenes.ts:305 | every row read for a scene belongs to that job and scene |
| `Scenes.DeleteShots` | indieshots-07-25/server/routes/scenes.ts:196 | no row of the deleted scene remains |
| `Scenes.ShotsForAppend` | indieshots-07-25/server/routes/scenes.ts:205 | reading a scene after appending rows reads the old rows then the new ones |
| `Scenes.ShotsForAfterDelete` | indieshots-07-25/server/routes/scenes.ts:196 | after deleting one scene, that scene reads empty and every other scene reads as before |
| `Scenes.ShotsForUniform` | indieshots-07-25/server/routes/scenes.ts:158-162 | rows that all belong to one scene read back whole from that scene and from no other |
| `Scenes.ReplaceSceneShots` | indieshots-07-25/server/routes/scenes.ts:196-205 | delete-then-create leaves the scene holding exactly the new rows and every other (job, scene) unchanged |
| `Scenes.ApplyTierLimit` | indieshots-07-25/server/routes/scenes.ts:140-153 | the kept shots are a prefix of the generated ones; `free` keeps at most 5; other tiers keep all; a warning with the original count and 5 appears exactly when shots were cut |
| `Scenes.MakeRecords` | indieshots-07-25/server/routes/scenes.ts:158-192 | one record per kept shot, in order, each built from its shot and position |
| `Scenes.StoredValueMeaning` | indieshots-07-25/server/routes/scenes.ts:165-181 | a stored text field is empty exactly when neither the shot nor (for heading, location, time of day, tone) the scene has a value; the shot's own value wins |
| `Scenes.RecordNumbering` | indieshots-07-25/server/routes/scenes.ts:160-164 | a record belongs to its job, scene and user; its shot number is the shot's or position+1, never 0; its display number is the shot's or the decimal text of position+1 |
| `Scenes.RecordFieldsDefined` | indieshots-07-25/server/routes/scenes.ts:165-181 | every text field of a record is present, with the defaulted value |
| `Scenes.GenerateShots` | indieshots-07-25/server/routes/scenes.ts:86-224 | a foreign or missing job is a 404, unparseable data a 400, a missing scene a 404, all before generation and with the table unchanged; the table changes only by the delete-then-create of that scene; a passing request with a generator answer and working writes always succeeds; the returned and stored rows are exactly the records of the clamped shots (`free`: the first min(n, 5)), built for the caller and the requested scene, with the clamp's warning; a failed create after the delete leaves that scene empty and every other job's and scene's shots as they were |
| `Scenes.AllSceneShotsBelong` | indieshots-07-25/server/routes/scenes.ts:265-274 | the listing holds only rows of the job, from scenes below the scene count whose fetch succeeded |
| `Scenes.AllSceneShotsOrdered` | indieshots-07-25/server/routes/scenes.ts:265-269 | the listing is in ascending scene order |
| `Scenes.AllSceneShotsComplete` | indieshots-07-25/server/routes/scenes.ts:265-273 | every row of every scene whose fetch succeeded is in the listing |
| `Scenes.ShotsForContains` | indieshots-07-25/server/routes/scenes.ts:267 | the per-scene read misses no row of that scene |
| `Scenes.ListAllShots` | indieshots-07-25/server/routes/scenes.ts:230-282 | a foreign or missing job is a 404; otherwise the scenes' shots are concatenated in ascending order, skipping failed fetches; unparseable text lists nothing |
| `Scenes.ListSceneShots` | indieshots-07-25/server/routes/scenes.ts:288-315 | a foreign job is a 404; a throwing read is a 500; otherwise the answer is the rows of that scene in table order, no more and no fewer |
| `Scenes.GenerateThenList` | indieshots-07-25/server/routes/scenes.ts:205-211 | after a successful generation, listing that scene returns exactly the shots the response reported |
| `Scenes.GetScenes` | indieshots-07-25/server/routes/scenes.ts:41-80 | a foreign job is a 404; a cached key is served without extraction; a miss with no script is a 404 and with empty content a 400; a throwing extractor is a 500 with nothing cached; a result is cached under `job_<id>_scenes` exactly when the extractor answered on a miss; otherwise the cache is unchanged |
| `Scenes.CachedScenesStable` | indieshots-07-25/server/routes/scenes.ts:53-57 | after one extraction, a later request gets the same scenes from the cache, whatever the scripts or extractor would now give |
| `Scenes.UsageStats` | indieshots-07-25/server/routes/scenes.ts:321-342 | no caller id is a 401; an identified caller gets the quota manager's answer with its id and tier (defaulting to `free`), or a 500 when the quota manager throws |
| `UriEncoding.EncodeChar` | indieshots-07-25/server/routes/freshPayment.ts:204 | an unreserved character is kept as it is; any other becomes percent escapes; the result contains only URL-safe characters |
| `UriEncoding.EncodeURIComponent` | indieshots-07-25/server/routes/freshPayment.ts:204 | the encoding is at least as long as the text and contains only URL-safe characters |
| `UriEncoding.EncodeDecodeRoundTrip` | indieshots-07-25/server/routes/freshPayment.ts:204 | decoding the encoding gives back the text |
| `UriEncoding.EncodeInjective` | indieshots-07-25/server/routes/freshPayment.ts:204 | distinct messages have distinct encodings |
| `Payment.CreatePayment` | indieshots-07-25/server/routes/freshPayment.ts:11-46 | a 400 when email or first name is falsy, a 500 when the gateway service throws, a request exactly otherwise; the request carries the fields, none empty, with the phone defaulting to `9999999999` |
| `Payment.CreatePaymentResubmit` | indieshots-07-25/server/routes/freshPayment.ts:15-29 | a built request sent again with its own fields is built unchanged |
| `Payment.CreatePaymentPhoneOptional` | indieshots-07-25/server/routes/freshPayment.ts:15 | whether a request is rejected does not depend on the phone |
| `Payment.LedgerUserIdDistinct` | indieshots-07-25/server/routes/freshPayment.ts:83 | users without a Firebase UID and with different ids get different ledger user ids |
| `Payment.Upgrade` | indieshots-07-25/server/routes/freshPayment.ts:100-108 | the upgraded user is `pro`, unlimited, keeps its identity, and records the transaction key |
| `Payment.HandleCallback` | indieshots-07-25/server/routes/freshPayment.ts:51-191 | a non-success status never touches users and at most records a failed entry for an existing user; on the success path the ledger changes only by the success entry under the key, and a fault at the lookup, ledger read or ledger write leaves the state unchanged; an unknown email on the success path changes nothing; an already recorded success changes nothing; a changed user implies a first success whose ledger entry was written; a fault-free first success records the entry, upgrades and re-issues a `pro` token equal to the stored user |
| `Payment.CallbackKeepsProInvariant` | indieshots-07-25/server/routes/freshPayment.ts:100-108 | no callback breaks "pro means unlimited" in the user store |
| `Payment.ReplayIsAlreadyProcessed` | indieshots-07-25/server/routes/freshPayment.ts:75-79 | replaying a success whose entry was recorded answers "already processed" and changes nothing |
| `Payment.SuccessIdempotent` | indieshots-07-25/server/routes/freshPayment.ts:75-108 | applying a success callback twice has the effect of applying it once |
| `Payment.FailedUpgradeNotRetried` | indieshots-07-25/server/routes/freshPayment.ts:82-153 | if the upgrade write fails, the caller gets the pending warning, the payment is on the ledger, the user is unchanged, and a replay does not upgrade |
| `Payment.FailureRedirect` | indieshots-07-25/server/routes/freshPayment.ts:196-210 | the redirect starts with `/upgrade?status=error&message=` and its query value decodes to the gateway message, or `Payment failed` when that is falsy |
| `Cleanup.Run` | indieshots-07-25/server/jobs/cleanup-scheduled-deletions.ts:22-136 | a call succeeds exactly when the environment has no fault for it |
| `Cleanup.FirstFailure` | indieshots-07-25/server/jobs/cleanup-scheduled-deletions.ts:31-38 | the position of the first throwing call: every call before it succeeds |
| `Cleanup.RunUntilFailure` | indieshots-07-25/server/jobs/cleanup-scheduled-deletions.ts:31-38 | awaited calls run in order up to and including the first that throws, and no further; without a throw every call is made; the run is all-ok exactly when no call fails |
| `Cleanup.RunCascade` | indieshots-07-25/server/jobs/cleanup-scheduled-deletions.ts:28-38 | the listing comes first; a failed listing stops everything; parse jobs and scripts are deleted in listing order; a script delete happens only once every parse-job delete succeeded; the cascade completes exactly when no call in it fails |
| `Cleanup.CascadeDeletesAll` | indieshots-07-25/server/jobs/cleanup-scheduled-deletions.ts:28-38 | after a good listing, the parse jobs of every listed script are deleted unless one delete throws, then every script unless one throws; a completed cascade made all of those calls |
| `Cleanup.EmailFallback` | indieshots-07-25/server/jobs/cleanup-scheduled-deletions.ts:98-114 | the fallback starts with the email lookup; a found account is then deleted by the uid the lookup returned, and a failed lookup is the only call; it counts as deleted when the looked-up account is deleted or either call reports user-not-found |
| `Cleanup.Identity` | indieshots-07-25/server/jobs/cleanup-scheduled-deletions.ts:76-133 | uninitialised Firebase makes no call; the UID is tried exactly when set; the email fallback runs exactly when the UID did not delete, and its calls are then exactly those of the email lookup and delete; verification runs exactly when deleted |
| `Cleanup.Independent` | indieshots-07-25/server/jobs/cleanup-scheduled-deletions.ts:41-74 | quota, health-analysis and session deletes are always attempted under the account key; promo usage is deleted exactly when the email is truthy; each delete is attempted once (four calls or three), quota first, promo usage second, sessions last, and each call's outcome is that of the store for that call |
| `Cleanup.ProcessAccount` | indieshots-07-25/server/jobs/cleanup-scheduled-deletions.ts:22-143 | a failed cascade ends the account: the deletes made before the failing call stand and nothing later is called; a completed one runs the independent deletes, the identity deletion and the local delete; the local record is deleted exactly when the cascade completes and its delete succeeds |
| `Cleanup.SweepAll` | indieshots-07-25/server/jobs/cleanup-scheduled-deletions.ts:22-144 | one report per pending account, each exactly that account's processing |
| `Cleanup.Sweep` | indieshots-07-25/server/jobs/cleanup-scheduled-deletions.ts:11-150 | a failed listing of pending accounts makes no report; otherwise every pending account is processed |
| `Cleanup.EmptySweepDeletesNothing` | indieshots-07-25/server/jobs/cleanup-scheduled-deletions.ts:13-18 | no pending account, or a failed listing, means no call at all |
| `Cleanup.AccountCallsOrdered` | indieshots-07-25/server/jobs/cleanup-scheduled-deletions.ts:28-136 | an account's calls run phase by phase: listing, parse jobs, scripts, independent deletes, identity provider, local delete; every keyed call uses `providerId \|\| id.toString()` |
| `Cleanup.ParseJobsBeforeScripts` | indieshots-07-25/server/jobs/cleanup-scheduled-deletions.ts:31-38 | every parse-job delete comes before every script delete |
| `Cleanup.LocalDeleteLast` | indieshots-07-25/server/jobs/cleanup-scheduled-deletions.ts:136 | after a completed cascade, the local account delete is the last call of the account |
| `Cleanup.LocalDeleteIgnoresIdentity` | indieshots-07-25/server/jobs/cleanup-scheduled-deletions.ts:81-136 | whether the local record is deleted does not depend on the identity provider: not on it being ready, on the accounts it holds, or on which of its calls throw |
| `Cleanup.VerificationIsInert` | indieshots-07-25/server/jobs/cleanup-scheduled-deletions.ts:116-126 | the verification lookup's answer changes neither the deletion outcome nor any earlier call |
| `Json.EscapeRoundTrip` | indieshots-07-25/server/index.ts:151 | reading back the escaped body of a JSON string gives the string |
| `Json.QuoteInjective` | indieshots-07-25/server/index.ts:151 | distinct strings have distinct JSON literals |
| `Json.Stringify` | indieshots-07-25/server/index.ts:151 | the JSON text is non-empty and contains no raw control character |
| `Json.StringifyString` | indieshots-07-25/server/index.ts:151 | a string value stringifies to a quoted literal whose body reads back to the string |
| `Server.Truncate` | indieshots-07-25/server/index.ts:153-155 | the result has at most 80 characters; it equals the line exactly when the line has at most 80; a longer line keeps its first 79 characters followed by `…` |
| `Server.FullLine` | indieshots-07-25/server/index.ts:149-152 | the line is exactly `<method> <path> <status> in <ms>ms` when no truthy body was captured; with one, that head is followed by exactly ` :: ` and the body's JSON |
| `Server.LogLine` | indieshots-07-25/server/index.ts:146-157 | a line is written exactly for paths starting with `/api`; it has at most 80 characters, is the full line when that fits, and otherwise is its first 79 characters and `…` |
| `Server.TruncateIdempotent` | indieshots-07-25/server/index.ts:153-155 | shortening a written line again changes nothing |
| `Server.TruncateKeepsPrefix` | indieshots-07-25/server/index.ts:154 | every kept position of the written line equals the full line there |
| `Server.BodySuffix` | indieshots-07-25/server/index.ts:150-152 | a falsy body gives the same line as no body; a truthy body ends the line with ` :: ` and its JSON text |
| `Server.LogLineSingleLine` | indieshots-07-25/server/index.ts:149-156 | when method and path contain no control characters, the written line contains none |
| `Server.HandleError` | indieshots-07-25/server/index.ts:171-176 | the status is a truthy `status`, else a truthy `statusCode`, else 500, and is never 0; the message is a truthy `message`, else `Internal Server Error`, and is never empty; the log text is `Error <status>: <message>` |
| `Server.ZeroStatusFallsThrough` | indieshots-07-25/server/index.ts:172 | `status: 0` is treated like a missing status |
| `Server.StatusFromError` | indieshots-07-25/server/index.ts:172 | the status sent is one the error carried, or 500 |

## Left out

- A falsy or `null` element of a parsed `scenes` array is a 404 in the generate route (scenes.ts:116-121). The model's scenes are always present values, so that case is not modelled.
- `storage.createShots` may return rows that differ from those passed in (scenes.ts:205-211). The model's response carries the rows passed to the store.
- `storage.getParseJob` throwing (scenes.ts:47, 98, 238, 296) is not modelled: the parse jobs are a map that always answers, so the routes' 500 for it is unreachable in the model.
- `storage.getScript` throwing in `GET /jobs/:jobId` (scenes.ts:60, 76-79) is not modelled: the scripts are a map that always answers.
- The `details` field of the shot generator's 500 reply (scenes.ts:219-222) is left out: it carries the text of the thrown error, which the model does not represent.
- `generateToken` throwing and the dynamic import of the token blacklist failing (firebaseAuthController.ts:33, 124, 166-168) are not modelled: token signing and module loading are outside the model, so the login's 500 arises only from the id derivation and the promo step.
- `firebaseSync` (firebaseAuthController.ts:175-184) is a placeholder that always answers success, so it is not modelled.
- Logging (`console.log`, `log`) is left out, except for the request-log line and the error log text.
- Cookies and their options, and the signing of tokens, are left out. A token is represented by the claims it would carry.
- `Date.now()` and timestamps are parameters. `duration` in the log line and `failed_<time>` in the ledger key are inputs.
- The 24-hour timer of the sweep (cleanup-scheduled-deletions.ts:154-167) is left out.
- The 30-day grace-period filter lives in the store's `getUsersPendingDeletion`. The sweep therefore takes the pending list as input.
- Concurrent requests and callback races are left out. Each handler runs alone on one state.
- `Math.round(parseFloat(amount) * 100)` (freshPayment.ts:87, 168) is floating point. The amount is kept as the text received (`amount \|\| '999'` on the failure path).
- NaN is left out. `parseInt` of a route parameter is an integer input, and a numeric field is `undefined` or an integer.
- Strings are sequences of characters. JavaScript's `.length` and `slice` count UTF-16 code units instead, so a character outside the Basic Multilingual Plane counts as one here rather than two, and the model never splits a surrogate pair.
- Server.Truncate: for a line containing characters outside the Basic Multilingual Plane, the model's bound on the length holds in characters, not in the UTF-16 units JavaScript counts.
- Json.Stringify: numbers are integers printed in decimal. Fractions, exponent notation, `-0`, NaN and Infinity, `undefined` members and `toJSON` are left out.
- `JSON.parse` of stored parse data is an oracle. Its outcome is part of the `ParseData` input.
- The gateway's hash verification is absent from the code (freshPayment.ts:49, 64), so it is not modelled.
- The outer `catch` blocks of `/success`, `/failure` and `/cancel` (freshPayment.ts:187-189, 206-209, 224-227) only catch errors of code the model treats as total, so they cannot be reached in the model.
- `/cancel` (freshPayment.ts:215-228) is a constant redirect and is not modelled.
- `recordTransaction` on a key already present is modelled as an overwrite. The ledger service is not part of this model.
- `getUserByEmail` with no email, or an empty one, is modelled as an error other than user-not-found. That is what Firebase reports for an invalid email.
- Express's `res.status` rejects codes outside 100-999. The error handler's reply is modelled without that check.
- Python's `remove_storyboards.py`, the client pages and the Firebase configuration files are not part of this model.

=== FILE: cleanup.dfy ===
/** The scheduled-deletion sweep: for every account whose deletion grace period
    has expired, delete its data, its identity-provider account and finally
    its local record, producing a trace of the store calls made.

    Which calls throw is an input (`Env.faults`), as are the scripts each
    account owns and the identity provider's accounts; the selection of
    expired accounts happens in the store and the sweep takes its answer. */
module Cleanup {
  import opened JsValues

  // ---------------------------------------------------------------------------
  // Data model
  // ---------------------------------------------------------------------------

  /** An account due for permanent deletion. */
  datatype PendingUser = PendingUser(id: nat, providerId: Option<string>, email: Option<string>)

  /** A call the sweep makes into the store or the identity provider. */
  datatype Op =
    | GetUserScripts(key: string)
    | DeleteParseJobs(scriptId: int)
    | DeleteScript(scriptId: int)
    | DeleteQuota(key: string)
    | DeletePromoUsage(address: string)
    | DeleteHealthAnalysis(key: string)
    | DeleteSessions(key: string)
    | IdpDeleteByUid(uid: string)
    | IdpLookupByEmail(email: Option<string>)
    | IdpDeleteLookedUp(uid: string)
    | IdpVerifyLookup(email: Option<string>)
    | DeleteUser(key: string)

  /** The error a failing call throws: the identity provider's
      `auth/user-not-found`, or anything else. */
  datatype Fault = UserNotFound | OtherFault

  /** One call in the trace, and whether it returned normally. */
  datatype Step = Step(op: Op, ok: bool)

  datatype Env = Env(
    scripts: map<string, seq<int>>,
    faults: map<Op, Fault>,
    firebaseReady: bool,
    idpAccounts: map<string, string>)

  datatype IdpResult = IdpResult(steps: seq<Step>, deleted: bool)

  predicate Fails(env: Env, op: Op) {
    op in env.faults
  }

  function Run(env: Env, op: Op): (s: Step)
    ensures s.op == op && (s.ok <==> !Fails(env, op))
  {
    Step(op, !Fails(env, op))
  }

  predicate AllOk(steps: seq<Step>) {
    forall k :: 0 <= k < |steps| ==> steps[k].ok
  }

  predicate NoneFail(env: Env, ops: seq<Op>) {
    forall k :: 0 <= k < |ops| ==> !Fails(env, ops[k])
  }

  predicate HasOp(steps: seq<Step>, op: Op) {
    exists k :: 0 <= k < |steps| && steps[k].op == op
  }

  /** `user.providerId || user.id.toString()`: the key of every local delete. */
  function LocalKey(u: PendingUser): string {
    OrElse(u.providerId, NatToString(u.id))
  }

  /** The account key a local call takes, if it takes one. */
  function KeyOf(op: Op): Option<string> {
    match op
    case GetUserScripts(k) => Some(k)
    case DeleteQuota(k) => Some(k)
    case DeleteHealthAnalysis(k) => Some(k)
    case DeleteSessions(k) => Some(k)
    case DeleteUser(k) => Some(k)
    case _ => None
  }

  /** The local calls that take an account key use `key`. */
  predicate UsesKey(op: Op, key: string) {
    KeyOf(op).None? || KeyOf(op).value == key
  }

  predicate AllKeyed(steps: seq<Step>, key: string) {
    forall k :: 0 <= k < |steps| ==> UsesKey(steps[k].op, key)
  }

  /** Where a call belongs in an account's deletion: the script listing, the
      parse-job deletes, the script deletes, the independent deletes, the
      identity provider, the local account delete. */
  function Phase(op: Op): nat {
    match op
    case GetUserScripts(_) => 0
    case DeleteParseJobs(_) => 1
    case DeleteScript(_) => 2
    case DeleteQuota(_) => 3
    case DeletePromoUsage(_) => 3
    case DeleteHealthAnalysis(_) => 3
    case DeleteSessions(_) => 3
    case DeleteUser(_) => 5
    case _ => 4
  }

  predicate InPhase(steps: seq<Step>, p: nat) {
    forall k :: 0 <= k < |steps| ==> Phase(steps[k].op) == p
  }

  /** The calls are made phase by phase: no call of a phase follows a call of a later one. */
  predicate PhaseOrdered(steps: seq<Step>) {
    forall i, j :: 0 <= i < j < |steps| ==> Phase(steps[i].op) <= Phase(steps[j].op)
  }

  function ScriptsOf(env: Env, key: string): seq<int> {
    if key in env.scripts then env.scripts[key] else []
  }

  function ParseJobOps(scripts: seq<int>): (ops: seq<Op>)
    ensures |ops| == |scripts|
    ensures forall k :: 0 <= k < |ops| ==> ops[k] == DeleteParseJobs(scripts[k])
  {
    seq(|scripts|, k requires 0 <= k < |scripts| => DeleteParseJobs(scripts[k]))
  }

  function ScriptOps(scripts: seq<int>): (ops: seq<Op>)
    ensures |ops| == |scripts|
    ensures forall k :: 0 <= k < |ops| ==> ops[k] == DeleteScript(scripts[k])
  {
    seq(|scripts|, k requires 0 <= k < |scripts| => DeleteScript(scripts[k]))
  }

  // ---------------------------------------------------------------------------
  // Sequential deletes that stop at the first exception
  // ---------------------------------------------------------------------------

  /** The position of the first call that throws, or `|ops|` when none does. */
  function FirstFailure(env: Env, ops: seq<Op>): (n: nat)
    ensures n <= |ops|
    ensures forall k :: 0 <= k < n ==> !Fails(env, ops[k])
    ensures n < |ops| ==> Fails(env, ops[n])
  {
    if |ops| == 0 || Fails(env, ops[0]) then 0 else 1 + FirstFailure(env, ops[1..])
  }

  /** Awaits each call in turn; the first exception propagates, so no later
      call is made. */
  function RunUntilFailure(env: Env, ops: seq<Op>): (steps: seq<Step>)
    ensures |steps| <= |ops|
    // the calls made are the prefix of `ops` up to and including the first that throws
    ensures |steps| == if FirstFailure(env, ops) < |ops| then FirstFailure(env, ops) + 1 else |ops|
    ensures forall k :: 0 <= k < |steps| ==> steps[k] == Run(env, ops[k])
    ensures forall k :: 0 <= k < |steps| - 1 ==> steps[k].ok
    ensures AllOk(steps) ==> |steps| == |ops|
    ensures AllOk(steps) <==> NoneFail(env, ops)
    ensures !AllOk(steps) ==> 0 < |steps| && !steps[|steps| - 1].ok
  {
    var n := FirstFailure(env, ops);
    var len := if n < |ops| then n + 1 else n;
    var steps := seq(len, k requires 0 <= k < len => Run(env, ops[k]));
    assert n < |ops| ==> !steps[n].ok;
    steps
  }

  /** The script cascade of `key` completes: the listing, every parse-job
      delete and every script delete return normally. */
  predicate CascadeOk(env: Env, key: string) {
    var scripts := ScriptsOf(env, key);
    && !Fails(env, GetUserScripts(key))
    && NoneFail(env, ParseJobOps(scripts))
    && NoneFail(env, ScriptOps(scripts))
  }

  /** The calls of the script cascade. */
  datatype Cascade = Cascade(listing: Step, parseJobs: seq<Step>, scripts: seq<Step>)

  predicate Completed(c: Cascade) {
    c.listing.ok && AllOk(c.parseJobs) && AllOk(c.scripts)
  }

  function CascadeSteps(c: Cascade): seq<Step> {
    [c.listing] + c.parseJobs + c.scripts
  }

  /** List the account's scripts, delete the parse jobs of each, then delete
      each script; the first exception ends the cascade. */
  function RunCascade(env: Env, key: string): (c: Cascade)
    ensures c.listing == Run(env, GetUserScripts(key))
    ensures !c.listing.ok ==> c.parseJobs == [] && c.scripts == []
    ensures |c.parseJobs| <= |ScriptsOf(env, key)| && |c.scripts| <= |ScriptsOf(env, key)|
    ensures forall k :: 0 <= k < |c.parseJobs| ==> c.parseJobs[k] == Run(env, DeleteParseJobs(ScriptsOf(env, key)[k]))
    ensures forall k :: 0 <= k < |c.scripts| ==> c.scripts[k] == Run(env, DeleteScript(ScriptsOf(env, key)[k]))
    // a script is deleted only after the parse jobs of every script are
    ensures c.scripts != [] ==> |c.parseJobs| == |ScriptsOf(env, key)| && AllOk(c.parseJobs)
    ensures Completed(c) <==> CascadeOk(env, key)
  {
    var list := Run(env, GetUserScripts(key));
    if !list.ok then Cascade(list, [], [])
    else
      var scripts := ScriptsOf(env, key);
      var pj := RunUntilFailure(env, ParseJobOps(scripts));
      if !AllOk(pj) then
        assert !NoneFail(env, ParseJobOps(scripts));
        Cascade(list, pj, [])
      else
        var sc := RunUntilFailure(env, ScriptOps(scripts));
        assert |pj| == |scripts|;
        Cascade(list, pj, sc)
  }

  /** After a good listing the parse jobs of every listed script are deleted
      unless one delete throws, and then every script unless one throws; a
      completed cascade made every one of those calls. */
  lemma CascadeDeletesAll(env: Env, key: string)
    ensures var c := RunCascade(env, key);
            && (c.listing.ok && AllOk(c.parseJobs) ==> |c.parseJobs| == |ScriptsOf(env, key)|)
            && (c.listing.ok && AllOk(c.parseJobs) && AllOk(c.scripts) ==> |c.scripts| == |ScriptsOf(env, key)|)
            && (CascadeOk(env, key) ==>
                  |c.parseJobs| == |ScriptsOf(env, key)| && |c.scripts| == |ScriptsOf(env, key)|)
  {
    var c := RunCascade(env, key);
    var scripts := ScriptsOf(env, key);
    if c.listing.ok {
      assert c.parseJobs == RunUntilFailure(env, ParseJobOps(scripts));
      if AllOk(c.parseJobs) {
        assert c.scripts == RunUntilFailure(env, ScriptOps(scripts));
      }
    }
  }

  // ---------------------------------------------------------------------------
  // Identity provider
  // ---------------------------------------------------------------------------

  datatype LookupAnswer = Found(uid: string) | LookupFault(fault: Fault)

  /** `getUserByEmail(email)`: a missing or empty email is an invalid argument. */
  function LookupByEmail(env: Env, email: Option<string>): LookupAnswer {
    if Fails(env, IdpLookupByEmail(email)) then LookupFault(env.faults[IdpLookupByEmail(email)])
    else if !Truthy(email) then LookupFault(OtherFault)
    else if email.value in env.idpAccounts then Found(env.idpAccounts[email.value])
    else LookupFault(UserNotFound)
  }

  /** The email fallback: look the account up and delete it by the uid found;
      `auth/user-not-found` from either call counts as deleted. */
  function EmailFallback(env: Env, email: Option<string>): (r: IdpResult)
    ensures 0 < |r.steps| && r.steps[0].op == IdpLookupByEmail(email)
    ensures InPhase(r.steps, 4)
    ensures r.deleted <==>
              match LookupByEmail(env, email)
              case LookupFault(f) => f == UserNotFound
              case Found(uid) => !Fails(env, IdpDeleteLookedUp(uid)) || env.faults[IdpDeleteLookedUp(uid)] == UserNotFound
    // a found account is deleted by the uid the lookup returned; a failed lookup is the only call
    ensures LookupByEmail(env, email).Found? ==>
              r.steps == [Step(IdpLookupByEmail(email), true), Run(env, IdpDeleteLookedUp(LookupByEmail(env, email).uid))]
    ensures LookupByEmail(env, email).LookupFault? ==> r.steps == [Step(IdpLookupByEmail(email), false)]
  {
    var lookup := IdpLookupByEmail(email);
    match LookupByEmail(env, email)
    case LookupFault(f) => IdpResult([Step(lookup, false)], f == UserNotFound)
    case Found(uid) =>
      var del := Run(env, IdpDeleteLookedUp(uid));
      IdpResult([Step(lookup, true), del], del.ok || env.faults[del.op] == UserNotFound)
  }

  /** Whether the UID attempt deleted the identity account. */
  predicate DeletedByUid(env: Env, u: PendingUser) {
    Truthy(u.providerId) && !Fails(env, IdpDeleteByUid(u.providerId.value))
  }

  /** The identity-provider calls for one account, in the order made. */
  datatype IdpTrace = IdpTrace(uidAttempt: Option<Step>, fallback: seq<Step>, verify: Option<Step>, deleted: bool)

  function OptSteps(s: Option<Step>): seq<Step> {
    if s.Some? then [s.value] else []
  }

  function IdpSteps(t: IdpTrace): seq<Step> {
    OptSteps(t.uidAttempt) + t.fallback + OptSteps(t.verify)
  }

  /** Deleting the identity account: the UID first when there is one, the email
      fallback when there is none or it failed, then a verification lookup that
      only logs. Nothing is attempted when Firebase is not initialised. */
  function Identity(env: Env, u: PendingUser): (r: IdpTrace)
    ensures !env.firebaseReady ==> r == IdpTrace(None, [], None, false)
    ensures r.uidAttempt.Some? <==> env.firebaseReady && Truthy(u.providerId)
    ensures r.uidAttempt.Some? ==> r.uidAttempt.value == Run(env, IdpDeleteByUid(u.providerId.value))
    // the email fallback runs exactly when the UID attempt was absent or failed
    ensures r.fallback != [] <==> env.firebaseReady && !DeletedByUid(env, u)
    ensures r.fallback != [] ==> r.fallback[0].op == IdpLookupByEmail(u.email)
    ensures r.fallback == if env.firebaseReady && !DeletedByUid(env, u) then EmailFallback(env, u.email).steps else []
    ensures r.deleted <==> env.firebaseReady && (DeletedByUid(env, u) || EmailFallback(env, u.email).deleted)
    // the verification lookup runs exactly when the account is believed deleted
    ensures r.verify.Some? <==> r.deleted
    ensures r.verify.Some? ==> r.verify.value.op == IdpVerifyLookup(u.email)
    ensures InPhase(IdpSteps(r), 4)
  {
    if !env.firebaseReady then IdpTrace(None, [], None, false)
    else
      var first := if Truthy(u.providerId) then Some(Run(env, IdpDeleteByUid(u.providerId.value))) else None;
      var fallback := if DeletedByUid(env, u) then IdpResult([], true) else EmailFallback(env, u.email);
      var verify := if fallback.deleted then Some(Run(env, IdpVerifyLookup(u.email))) else None;
      var r := IdpTrace(first, fallback.steps, verify, fallback.deleted);
      IdpStepsInPhase(r);
      r
  }

  /** The identity-provider calls are all of phase 4 when each part's are. */
  lemma IdpStepsInPhase(t: IdpTrace)
    requires InPhase(OptSteps(t.uidAttempt), 4) && InPhase(t.fallback, 4) && InPhase(OptSteps(t.verify), 4)
    ensures InPhase(IdpSteps(t), 4)
  {
    var a := OptSteps(t.uidAttempt);
    forall k | 0 <= k < |IdpSteps(t)| ensures Phase(IdpSteps(t)[k].op) == 4 {
      if |a| <= k < |a| + |t.fallback| {
        assert IdpSteps(t)[k] == t.fallback[k - |a|];
      } else if k >= |a| + |t.fallback| {
        assert IdpSteps(t)[k] == OptSteps(t.verify)[k - |a| - |t.fallback|];
      }
    }
  }

  // ---------------------------------------------------------------------------
  // One account
  // ---------------------------------------------------------------------------

  /** A call of the independent segment for the account with `key`. */
  predicate IndependentOp(op: Op, key: string) {
    op == DeleteQuota(key) || op.DeletePromoUsage? || op == DeleteHealthAnalysis(key) || op == DeleteSessions(key)
  }

  /** Calls of the independent segment are all of phase 3 and keyed by `key`. */
  lemma IndependentOpsPhased(steps: seq<Step>, key: string)
    requires forall k :: 0 <= k < |steps| ==> IndependentOp(steps[k].op, key)
    ensures AllKeyed(steps, key) && InPhase(steps, 3)
  {
  }

  /** The deletes that each swallow their own exception. */
  function Independent(env: Env, u: PendingUser, key: string): (steps: seq<Step>)
    ensures HasOp(steps, DeleteQuota(key)) && HasOp(steps, DeleteHealthAnalysis(key)) && HasOp(steps, DeleteSessions(key))
    ensures Truthy(u.email) <==> HasOp(steps, DeletePromoUsage(OrElse(u.email, "")))
    ensures AllKeyed(steps, key) && InPhase(steps, 3)
    // each delete is made once, quota first and sessions last, promo usage second
    ensures |steps| == if Truthy(u.email) then 4 else 3
    ensures forall k :: 0 <= k < |steps| ==> steps[k] == Run(env, steps[k].op)
    ensures steps[0].op == DeleteQuota(key)
    ensures steps[|steps| - 1].op == DeleteSessions(key)
    ensures Truthy(u.email) ==> steps[1].op == DeletePromoUsage(u.email.value)
  {
    if Truthy(u.email) then
      var steps := [Run(env, DeleteQuota(key)), Run(env, DeletePromoUsage(u.email.value)),
                    Run(env, DeleteHealthAnalysis(key)), Run(env, DeleteSessions(key))];
      assert steps[0].op == DeleteQuota(key) && steps[1].op == DeletePromoUsage(OrElse(u.email, ""));
      assert steps[2].op == DeleteHealthAnalysis(key) && steps[3].op == DeleteSessions(key);
      IndependentOpsPhased(steps, key);
      steps
    else
      var steps := [Run(env, DeleteQuota(key)), Run(env, DeleteHealthAnalysis(key)), Run(env, DeleteSessions(key))];
      assert steps[0].op == DeleteQuota(key) && steps[1].op == DeleteHealthAnalysis(key);
      assert steps[2].op == DeleteSessions(key);
      IndependentOpsPhased(steps, key);
      steps
  }

  /** The calls made for one account, segment by segment in the order the code
      makes them; `final` is the local account delete. */
  datatype AccountTrace = AccountTrace(
    cascade: Cascade,
    independent: seq<Step>,
    identity: IdpTrace,
    final: Option<Step>)

  /** What happened to one account. */
  datatype AccountReport = AccountReport(trace: AccountTrace, idpDeleted: bool, localDeleted: bool)

  /** The account's calls as one sequence. */
  function Steps(t: AccountTrace): seq<Step> {
    CascadeSteps(t.cascade) + t.independent + IdpSteps(t.identity) + OptSteps(t.final)
  }

  /** One account, inside the per-account `try`: the script cascade, whose first
      exception ends the account, then the deletes that fail independently, the
      identity provider, and the local account record last. */
  function ProcessAccount(env: Env, u: PendingUser): (r: AccountReport)
    ensures r.trace.cascade == RunCascade(env, LocalKey(u))
    // a failure in the script cascade ends the account: nothing later is called
    ensures !CascadeOk(env, LocalKey(u)) ==>
              && r.trace.independent == [] && r.trace.identity == IdpTrace(None, [], None, false) && r.trace.final == None
              && !r.idpDeleted && !r.localDeleted
    // otherwise every later step is attempted whatever the others do, the local record last
    ensures CascadeOk(env, LocalKey(u)) ==>
              && r.trace.independent == Independent(env, u, LocalKey(u))
              && r.trace.identity == Identity(env, u)
              && r.trace.final == Some(Run(env, DeleteUser(LocalKey(u))))
    ensures r.localDeleted <==> CascadeOk(env, LocalKey(u)) && !Fails(env, DeleteUser(LocalKey(u)))
    ensures r.idpDeleted <==> CascadeOk(env, LocalKey(u)) && Identity(env, u).deleted
  {
    var key := LocalKey(u);
    var c := RunCascade(env, key);
    if !Completed(c) then AccountReport(AccountTrace(c, [], IdpTrace(None, [], None, false), None), false, false)
    else
      var idp := Identity(env, u);
      var last := Run(env, DeleteUser(key));
      AccountReport(AccountTrace(c, Independent(env, u, key), idp, Some(last)), idp.deleted, last.ok)
  }

  // ---------------------------------------------------------------------------
  // The sweep
  // ---------------------------------------------------------------------------

  /** The per-account loop: an exception in one account is caught and the next
      account is processed. */
  function SweepAll(env: Env, users: seq<PendingUser>): (reports: seq<AccountReport>)
    ensures |reports| == |users|
    ensures forall i :: 0 <= i < |users| ==> reports[i] == ProcessAccount(env, users[i])
  {
    seq(|users|, i requires 0 <= i < |users| => ProcessAccount(env, users[i]))
  }

  /** `cleanupScheduledDeletions()`: a failed listing of pending accounts is
      caught and nothing is deleted. */
  function Sweep(env: Env, pending: Reply<seq<PendingUser>>): (reports: seq<AccountReport>)
    ensures pending.Throws? ==> reports == []
    ensures pending.Returns? ==> |reports| == |pending.value|
    ensures pending.Returns? ==>
              forall i :: 0 <= i < |pending.value| ==> reports[i] == ProcessAccount(env, pending.value[i])
  {
    if pending.Throws? then [] else SweepAll(env, pending.value)
  }

  /** All calls of a sweep, account after account. */
  function Trace(reports: seq<AccountReport>): seq<Step> {
    if |reports| == 0 then [] else Steps(reports[0].trace) + Trace(reports[1..])
  }

  // ---------------------------------------------------------------------------
  // Properties
  // ---------------------------------------------------------------------------

  /** No pending account, or a failed listing, means no call at all. */
  lemma EmptySweepDeletesNothing(env: Env, pending: Reply<seq<PendingUser>>)
    requires pending.Throws? || pending.value == []
    ensures Trace(Sweep(env, pending)) == []
  {
  }

  /** The segments of an account trace are in their phases 0 to 5, and the
      keyed ones use `key`. */
  predicate SegmentsPhased(t: AccountTrace, key: string) {
    && Phase(t.cascade.listing.op) == 0 && InPhase(t.cascade.parseJobs, 1) && InPhase(t.cascade.scripts, 2)
    && InPhase(t.independent, 3) && InPhase(IdpSteps(t.identity), 4) && InPhase(OptSteps(t.final), 5)
    && UsesKey(t.cascade.listing.op, key) && AllKeyed(t.independent, key) && AllKeyed(OptSteps(t.final), key)
  }

  /** Segments of phases 0 to 5, in that order, make a phase-ordered trace;
      when the keyed segments use `key`, so does the whole trace. */
  lemma SegmentsOrdered(t: AccountTrace, key: string)
    requires SegmentsPhased(t, key)
    ensures PhaseOrdered(Steps(t))
    ensures AllKeyed(Steps(t), key)
    // every call before the final segment is of an earlier phase than the local delete
    ensures forall k :: 0 <= k < |Steps(t)| - |OptSteps(t.final)| ==> Phase(Steps(t)[k].op) <= 4
  {
    var s := Steps(t);
    var b2 := 1 + |t.cascade.parseJobs|;
    var b3 := b2 + |t.cascade.scripts|;
    var b4 := b3 + |t.independent|;
    var b5 := b4 + |IdpSteps(t.identity)|;
    forall k | 0 <= k < |s|
      ensures Phase(s[k].op) == (if k < 1 then 0 else if k < b2 then 1 else if k < b3 then 2
                                 else if k < b4 then 3 else if k < b5 then 4 else 5)
      ensures UsesKey(s[k].op, key)
    {
      if k < 1 {
        assert s[k] == t.cascade.listing;
      } else if k < b2 {
        assert s[k] == t.cascade.parseJobs[k - 1];
      } else if k < b3 {
        assert s[k] == t.cascade.scripts[k - b2];
      } else if k < b4 {
        assert s[k] == t.independent[k - b3];
      } else if k < b5 {
        assert s[k] == IdpSteps(t.identity)[k - b4];
      } else {
        assert s[k] == OptSteps(t.final)[k - b5];
      }
    }
  }

  /** The cascade's calls are in phases 0, 1 and 2, and the listing uses the key. */
  lemma CascadePhased(env: Env, key: string)
    ensures var c := RunCascade(env, key);
            && Phase(c.listing.op) == 0 && UsesKey(c.listing.op, key)
            && InPhase(c.parseJobs, 1) && InPhase(c.scripts, 2)
  {
    ParseJobsPhased(env, key);
    ScriptsPhased(env, key);
  }

  lemma ParseJobsPhased(env: Env, key: string)
    ensures InPhase(RunCascade(env, key).parseJobs, 1)
  {
    var c := RunCascade(env, key);
    forall k | 0 <= k < |c.parseJobs| ensures Phase(c.parseJobs[k].op) == 1 {
      assert c.parseJobs[k].op == DeleteParseJobs(ScriptsOf(env, key)[k]);
    }
  }

  lemma ScriptsPhased(env: Env, key: string)
    ensures InPhase(RunCascade(env, key).scripts, 2)
  {
    var c := RunCascade(env, key);
    forall k | 0 <= k < |c.scripts| ensures Phase(c.scripts[k].op) == 2 {
      assert c.scripts[k].op == DeleteScript(ScriptsOf(env, key)[k]);
    }
  }

  lemma AccountSegmentsPhased(env: Env, u: PendingUser)
    ensures SegmentsPhased(ProcessAccount(env, u).trace, LocalKey(u))
  {
    var t := ProcessAccount(env, u).trace;
    CascadePhased(env, LocalKey(u));
    if CascadeOk(env, LocalKey(u)) {
      LaterSegmentsPhased(env, u);
    } else {
      assert t.independent == [] && IdpSteps(t.identity) == [] && OptSteps(t.final) == [];
    }
  }

  /** After a completed cascade the later segments keep to their phases and key. */
  lemma LaterSegmentsPhased(env: Env, u: PendingUser)
    requires CascadeOk(env, LocalKey(u))
    ensures var t := ProcessAccount(env, u).trace;
            && InPhase(t.independent, 3) && InPhase(IdpSteps(t.identity), 4) && InPhase(OptSteps(t.final), 5)
            && AllKeyed(t.independent, LocalKey(u)) && AllKeyed(OptSteps(t.final), LocalKey(u))
  {
    var key := LocalKey(u);
    var last := Run(env, DeleteUser(key));
    FinalStepPhased(last, key);
    PartsPhased(ProcessAccount(env, u).trace, Independent(env, u, key), Identity(env, u), last, key);
  }

  /** The local account delete is of phase 5 and uses the account's key. */
  lemma FinalStepPhased(last: Step, key: string)
    requires last.op == DeleteUser(key)
    ensures InPhase(OptSteps(Some(last)), 5) && AllKeyed(OptSteps(Some(last)), key)
  {
    assert OptSteps(Some(last)) == [last];
  }

  /** A trace assembled from phased parts is phased part by part. */
  lemma PartsPhased(t: AccountTrace, ind: seq<Step>, idp: IdpTrace, last: Step, key: string)
    requires t.independent == ind && t.identity == idp && t.final == Some(last)
    requires InPhase(ind, 3) && AllKeyed(ind, key) && InPhase(IdpSteps(idp), 4)
    requires InPhase(OptSteps(Some(last)), 5) && AllKeyed(OptSteps(Some(last)), key)
    ensures InPhase(t.independent, 3) && InPhase(IdpSteps(t.identity), 4) && InPhase(OptSteps(t.final), 5)
    ensures AllKeyed(t.independent, key) && AllKeyed(OptSteps(t.final), key)
  {
  }

  /** An account's calls are made phase by phase — the listing, every parse-job
      delete, every script delete, the independent deletes, the identity
      provider, the local account delete — and every keyed local call uses
      `providerId || id.toString()`. */
  lemma AccountCallsOrdered(env: Env, u: PendingUser)
    ensures PhaseOrdered(Steps(ProcessAccount(env, u).trace))
    ensures AllKeyed(Steps(ProcessAccount(env, u).trace), LocalKey(u))
  {
    AccountSegmentsPhased(env, u);
    SegmentsOrdered(ProcessAccount(env, u).trace, LocalKey(u));
  }

  /** Every parse-job delete of an account comes before all of its script deletes. */
  lemma ParseJobsBeforeScripts(env: Env, u: PendingUser, i: nat, j: nat)
    requires var steps := Steps(ProcessAccount(env, u).trace);
             i < |steps| && j < |steps| && steps[i].op.DeleteScript? && steps[j].op.DeleteParseJobs?
    ensures j < i
  {
    AccountCallsOrdered(env, u);
    ScriptAfterParseJobs(Steps(ProcessAccount(env, u).trace), i, j);
  }

  /** In a phase-ordered trace every script delete comes after every parse-job delete. */
  lemma ScriptAfterParseJobs(steps: seq<Step>, i: nat, j: nat)
    requires PhaseOrdered(steps) && i < |steps| && j < |steps|
    requires steps[i].op.DeleteScript? && steps[j].op.DeleteParseJobs?
    ensures j < i
  {
    assert Phase(steps[j].op) < Phase(steps[i].op);
  }

  /** After a completed cascade the local account delete is the last call, and
      no other call of the account is a local account delete. */
  lemma LocalDeleteLast(env: Env, u: PendingUser, k: nat)
    requires CascadeOk(env, LocalKey(u))
    requires k < |Steps(ProcessAccount(env, u).trace)|
    ensures var steps := Steps(ProcessAccount(env, u).trace);
            && steps[|steps| - 1] == Run(env, DeleteUser(LocalKey(u)))
            && (steps[k].op.DeleteUser? ==> k == |steps| - 1)
  {
    var t := ProcessAccount(env, u).trace;
    AccountSegmentsPhased(env, u);
    assert t.final == Some(Run(env, DeleteUser(LocalKey(u))));
    FinalSegmentLast(t, LocalKey(u), k);
  }

  /** In a phased trace that ends with a local delete, that delete is the last
      call and the only one of its kind. */
  lemma FinalSegmentLast(t: AccountTrace, key: string, k: nat)
    requires SegmentsPhased(t, key) && t.final.Some?
    requires k < |Steps(t)|
    ensures Steps(t)[|Steps(t)| - 1] == t.final.value
    ensures Steps(t)[k].op.DeleteUser? ==> k == |Steps(t)| - 1
  {
    SegmentsOrdered(t, key);
    var steps := Steps(t);
    var before := CascadeSteps(t.cascade) + t.independent + IdpSteps(t.identity);
    assert steps == before + [t.final.value];
    assert |OptSteps(t.final)| == 1;
    if k < |steps| - 1 {
      assert Phase(steps[k].op) <= 4;
    }
  }

  /** Two fault maps that agree on every call outside the identity provider. */
  predicate SameLocalFaults(f: map<Op, Fault>, f': map<Op, Fault>) {
    && (forall op :: op in f && Phase(op) != 4 ==> op in f')
    && (forall op :: op in f' && Phase(op) != 4 ==> op in f)
  }

  /** Whether the script cascade completes depends only on the store. */
  lemma CascadeOkFromStore(env: Env, env': Env, key: string)
    requires env'.scripts == env.scripts && SameLocalFaults(env.faults, env'.faults)
    ensures CascadeOk(env', key) == CascadeOk(env, key)
  {
    var scripts := ScriptsOf(env, key);
    assert ScriptsOf(env', key) == scripts;
    var pj, sc := ParseJobOps(scripts), ScriptOps(scripts);
    assert forall k :: 0 <= k < |pj| ==> Phase(pj[k]) == 1;
    assert forall k :: 0 <= k < |sc| ==> Phase(sc[k]) == 2;
    assert NoneFail(env', pj) == NoneFail(env, pj);
    assert NoneFail(env', sc) == NoneFail(env, sc);
  }

  /** The local record is deleted whatever happens at the identity provider,
      including when Firebase is not initialised: two environments with the
      same store and the same local faults agree on it, whatever the identity
      provider holds or throws. */
  lemma LocalDeleteIgnoresIdentity(env: Env, env': Env, u: PendingUser)
    requires env'.scripts == env.scripts && SameLocalFaults(env.faults, env'.faults)
    ensures ProcessAccount(env', u).localDeleted == ProcessAccount(env, u).localDeleted
  {
    CascadeOkFromStore(env, env', LocalKey(u));
    assert Phase(DeleteUser(LocalKey(u))) == 5;
  }

  /** Two fault maps that agree on everything except the verification lookup. */
  predicate SameExceptVerify(f: map<Op, Fault>, f': map<Op, Fault>) {
    && (forall op :: op in f && !op.IdpVerifyLookup? ==> op in f' && f'[op] == f[op])
    && (forall op :: op in f' && !op.IdpVerifyLookup? ==> op in f)
  }

  /** The verification lookup only logs: its answer changes neither the
      identity outcome nor any other call. */
  lemma VerificationIsInert(env: Env, u: PendingUser, faults': map<Op, Fault>)
    requires SameExceptVerify(env.faults, faults')
    ensures var r := Identity(env, u);
            var r' := Identity(env.(faults := faults'), u);
            && r'.deleted == r.deleted
            && r'.uidAttempt == r.uidAttempt
            && r'.fallback == r.fallback
            && r'.verify.Some? == r.verify.Some?
            && (r.verify.Some? ==> r'.verify.value.op == r.verify.value.op)
  {
    var env' := env.(faults := faults');
    assert LookupByEmail(env', u.email) == LookupByEmail(env, u.email);
    if Truthy(u.providerId) {
      assert Fails(env', IdpDeleteByUid(u.providerId.value)) == Fails(env, IdpDeleteByUid(u.providerId.value));
    }
    match LookupByEmail(env, u.email)
    case Found(uid) =>
      assert Fails(env', IdpDeleteLookedUp(uid)) == Fails(env, IdpDeleteLookedUp(uid));
    case LookupFault(_) =>
  }
}

=== FILE: js_values.dfy ===
/** JavaScript value conventions shared by the server routes: fields that may be
    `undefined`, the falsy defaulting of `a || b`, the first-occurrence-only
    `String.replace`, `String.startsWith`, and the decimal text of an integer
    (`${n}` and `n.toString()`).

    A JS string is modelled as a `string` with one element per character, so
    `s.length` is `|s|`. */
module JsValues {

  /** A value that may be `undefined`. */
  datatype Option<+T> = None | Some(value: T)

  /** Answer of a call into a collaborator: a value, or an exception. */
  datatype Reply<+T> = Returns(value: T) | Throws

  // ---------------------------------------------------------------------------
  // Truthiness and `||` defaults
  // ---------------------------------------------------------------------------

  /** JS truthiness of a possibly-undefined string: `undefined` and `''` are falsy. */
  predicate Truthy(s: Option<string>) {
    s.Some? && s.value != ""
  }

  /** JS truthiness of a possibly-undefined integer: `undefined` and `0` are falsy. */
  predicate TruthyInt(n: Option<int>) {
    n.Some? && n.value != 0
  }

  /** `s || d` where the default `d` is a string literal. */
  function OrElse(s: Option<string>, d: string): string {
    if Truthy(s) then s.value else d
  }

  /** `a || b` where `b` may itself be `undefined` or empty. */
  function Or(a: Option<string>, b: Option<string>): Option<string> {
    if Truthy(a) then a else b
  }

  /** `n || d` for a possibly-undefined integer. */
  function OrElseInt(n: Option<int>, d: int): int {
    if TruthyInt(n) then n.value else d
  }

  /** `${s}` inside a template literal: `undefined` prints as the word. */
  function Interpolate(s: Option<string>): string {
    if s.Some? then s.value else "undefined"
  }

  // ---------------------------------------------------------------------------
  // String operations
  // ---------------------------------------------------------------------------

  /** `s.startsWith(p)`. */
  predicate StartsWith(s: string, p: string) {
    |p| <= |s| && s[..|p|] == p
  }

  /** `s.indexOf(c)` for a one-character pattern: the first position holding `c`, or -1. */
  function IndexOf(s: string, c: char): (i: int)
    ensures -1 <= i < |s|
    ensures i == -1 <==> c !in s
    ensures 0 <= i ==> s[i] == c && c !in s[..i]
  {
    if |s| == 0 then -1
    else if s[0] == c then 0
    else
      var j := IndexOf(s[1..], c);
      if j == -1 then -1
      else
        assert s[..j + 1] == [s[0]] + s[1..][..j];
        j + 1
  }

  /** The first occurrence is the one position holding `c` with no `c` before it. */
  lemma {:induction false} IndexOfIs(s: string, c: char, i: nat)
    requires i < |s| && s[i] == c && c !in s[..i]
    ensures IndexOf(s, c) == i
  {
    if i > 0 {
      assert s[0] == s[..i][0];
      assert s[1..][..i - 1] == s[1..i];
      IndexOfIs(s[1..], c, i - 1);
    }
  }

  /** `s.replace(pat, rep)` where `pat` is a one-character string: JS replaces
      only the FIRST occurrence when the pattern is a string. */
  function ReplaceFirst(s: string, pat: char, rep: char): (r: string)
    ensures |r| == |s|
    ensures pat !in s ==> r == s
  {
    var i := IndexOf(s, pat);
    if i < 0 then s else s[..i] + [rep] + s[i + 1..]
  }

  /** Position by position: the first `pat` becomes `rep` and every other
      character, including any later `pat`, is kept. */
  lemma ReplaceFirstPositions(s: string, pat: char, rep: char)
    ensures pat in s ==> ReplaceFirst(s, pat, rep)[IndexOf(s, pat)] == rep
    ensures forall k :: 0 <= k < |s| && k != IndexOf(s, pat) ==> ReplaceFirst(s, pat, rep)[k] == s[k]
  {
  }

  /** Replacing in `a + [pat] + b` when `a` holds no `pat` rewrites exactly the
      character after `a`. */
  lemma ReplaceFirstSplit(a: string, pat: char, rep: char, b: string)
    requires pat !in a
    ensures IndexOf(a + [pat] + b, pat) == |a|
    ensures ReplaceFirst(a + [pat] + b, pat, rep) == a + [rep] + b
  {
    var s := a + [pat] + b;
    assert s[..|a|] == a;
    IndexOfIs(s, pat, |a|);
    assert s[|a| + 1..] == b;
  }

  /** Only one occurrence is replaced: the count of `pat` drops by exactly one,
      the count of `rep` grows by exactly one, and no other character's count moves. */
  lemma ReplaceFirstCounts(s: string, pat: char, rep: char)
    requires pat != rep
    ensures pat in s ==> multiset(ReplaceFirst(s, pat, rep))[pat] == multiset(s)[pat] - 1
    ensures pat in s ==> multiset(ReplaceFirst(s, pat, rep))[rep] == multiset(s)[rep] + 1
    ensures forall x :: x != pat && x != rep ==> multiset(ReplaceFirst(s, pat, rep))[x] == multiset(s)[x]
  {
    if pat in s {
      var i := IndexOf(s, pat);
      assert s == s[..i] + [pat] + s[i + 1..];
      assert multiset(s) == multiset(s[..i]) + multiset{pat} + multiset(s[i + 1..]);
      assert ReplaceFirst(s, pat, rep) == s[..i] + [rep] + s[i + 1..];
      assert multiset(ReplaceFirst(s, pat, rep))
          == multiset(s[..i]) + multiset{rep} + multiset(s[i + 1..]);
    }
  }

  // ---------------------------------------------------------------------------
  // Decimal text of integers
  // ---------------------------------------------------------------------------

  predicate IsDigit(c: char) {
    '0' <= c <= '9'
  }

  function DigitChar(d: nat): (c: char)
    requires d < 10
    ensures IsDigit(c)
  {
    "0123456789"[d]
  }

  function DigitValue(c: char): nat
    requires IsDigit(c)
  {
    (c - '0') as nat
  }

  /** Decimal text of a natural number, most significant digit first. */
  function NatToString(n: nat): (s: string)
    decreases n
  {
    if n < 10 then [DigitChar(n)] else NatToString(n / 10) + [DigitChar(n % 10)]
  }

  /** `${n}` for an integer (values beyond the exact range of a double are not modelled). */
  function IntToString(n: int): string {
    if n < 0 then "-" + NatToString(-n) else NatToString(n)
  }

  predicate AllDigits(s: string) {
    forall k :: 0 <= k < |s| ==> IsDigit(s[k])
  }

  /** Value of a string of decimal digits; the reading partner of `NatToString`. */
  function ParseNat(s: string): nat
    requires AllDigits(s)
  {
    if |s| == 0 then 0 else ParseNat(s[..|s| - 1]) * 10 + DigitValue(s[|s| - 1])
  }

  /** Value of an optionally signed decimal string; the reading partner of `IntToString`. */
  function ParseInt(s: string): int
    requires |s| > 0
    requires s[0] == '-' ==> AllDigits(s[1..])
    requires s[0] != '-' ==> AllDigits(s)
  {
    if s[0] == '-' then -(ParseNat(s[1..]) as int) else ParseNat(s)
  }

  /** The text of `n` is a non-empty digit string with no leading zero. */
  lemma {:induction false} NatToStringWellFormed(n: nat)
    ensures AllDigits(NatToString(n))
    ensures 0 < |NatToString(n)|
    ensures NatToString(n)[0] == '0' ==> n == 0
    decreases n
  {
    if n >= 10 {
      NatToStringWellFormed(n / 10);
    }
  }

  /** Reading back the decimal text of `n` gives `n`. */
  lemma {:induction false} NatToStringRoundTrip(n: nat)
    ensures AllDigits(NatToString(n))
    ensures ParseNat(NatToString(n)) == n
    decreases n
  {
    NatToStringWellFormed(n);
    if n >= 10 {
      NatToStringRoundTrip(n / 10);
      var s := NatToString(n);
      assert s[..|s| - 1] == NatToString(n / 10);
    } else {
      assert NatToString(n)[..0] == "";
    }
  }

  /** Reading back `${n}` gives `n`, for negative numbers too. */
  lemma IntToStringRoundTrip(n: int)
    ensures |IntToString(n)| > 0
    ensures IntToString(n)[0] == '-' <==> n < 0
    ensures IntToString(n)[0] == '-' ==> AllDigits(IntToString(n)[1..])
    ensures IntToString(n)[0] != '-' ==> AllDigits(IntToString(n))
    ensures ParseInt(IntToString(n)) == n
  {
    if n < 0 {
      NegativeRoundTrip(n);
    } else {
      NonNegativeRoundTrip(n);
    }
  }

  /** The text of a negative number is a minus sign before the text of its
      magnitude, and reads back to the number. */
  lemma NegativeRoundTrip(n: int)
    requires n < 0
    ensures |IntToString(n)| > 0 && IntToString(n)[0] == '-'
    ensures AllDigits(IntToString(n)[1..])
    ensures ParseInt(IntToString(n)) == n
  {
    var t := NatToString(-n);
    NatToStringRoundTrip(-n);
    var s := "-" + t;
    assert s[1..] == t;
    assert ParseInt(s) == -(ParseNat(t) as int);
    assert IntToString(n) == s;
  }

  /** The text of a non-negative number is its digit string and reads back to it. */
  lemma NonNegativeRoundTrip(n: int)
    requires n >= 0
    ensures |IntToString(n)| > 0 && IntToString(n)[0] != '-'
    ensures AllDigits(IntToString(n))
    ensures ParseInt(IntToString(n)) == n
  {
    NatToStringRoundTrip(n);
    NatToStringWellFormed(n);
    assert IntToString(n) == NatToString(n);
    assert IsDigit(NatToString(n)[0]);
  }

  /** Distinct integers have distinct decimal texts. */
  lemma IntToStringInjective(m: int, n: int)
    requires IntToString(m) == IntToString(n)
    ensures m == n
  {
    IntToStringRoundTrip(m);
    IntToStringRoundTrip(n);
  }
}

=== FILE: json.dfy ===
/** JSON values as a route passes them to `res.json`, their JavaScript
    truthiness, and `JSON.stringify` as defined in section 25.5.2 of
    ECMA-262, for values whose numbers are integers. */
module Json {
  import opened JsValues

  datatype Json =
    | JNull
    | JBool(b: bool)
    | JNumber(n: int)
    | JString(s: string)
    | JArray(items: seq<Json>)
    | JObject(members: seq<(string, Json)>)

  /** JavaScript truthiness: `null`, `false`, `0` and `''` are falsy; every
      array and object is truthy, even an empty one. */
  predicate JsonTruthy(j: Json) {
    match j
    case JNull => false
    case JBool(b) => b
    case JNumber(n) => n != 0
    case JString(s) => s != ""
    case _ => true
  }

  // ---------------------------------------------------------------------------
  // String escaping
  // ---------------------------------------------------------------------------

  /** A character that `JSON.stringify` never writes raw: the controls below U+0020. */
  predicate IsControl(c: char) {
    c < ' '
  }

  predicate NoControl(s: string) {
    forall k :: 0 <= k < |s| ==> !IsControl(s[k])
  }

  function LowerHex(d: nat): (c: char)
    requires d < 16
    ensures !IsControl(c)
  {
    "0123456789abcdef"[d]
  }

  function LowerHexValue(c: char): Option<nat> {
    if '0' <= c <= '9' then Some((c - '0') as nat)
    else if 'a' <= c <= 'f' then Some((c - 'a') as nat + 10)
    else None
  }

  /** The escape of one character inside a JSON string. */
  function EscapeChar(c: char): (e: string)
    ensures 1 <= |e| && NoControl(e)
    ensures e[0] == '\\' <==> (IsControl(c) || c == '"' || c == '\\')
  {
    if c == '"' then "\\\""
    else if c == '\\' then "\\\\"
    else if c == '\U{8}' then "\\b"
    else if c == '\U{C}' then "\\f"
    else if c == '\n' then "\\n"
    else if c == '\r' then "\\r"
    else if c == '\t' then "\\t"
    else if IsControl(c) then "\\u00" + [LowerHex(c as int / 16), LowerHex(c as int % 16)]
    else [c]
  }

  function EscapeString(s: string): (e: string)
    ensures NoControl(e)
    ensures |e| >= |s|
  {
    if |s| == 0 then "" else EscapeChar(s[0]) + EscapeString(s[1..])
  }

  /** A JSON string literal. */
  function Quote(s: string): (q: string)
    ensures 2 <= |q| && q[0] == '"' && q[|q| - 1] == '"'
    ensures NoControl(q)
  {
    "\"" + EscapeString(s) + "\""
  }

  /** Reads one escaped character at the front of `t`, with the number of
      characters it occupies; `None` at a closing quote or a malformed escape. */
  function UnescapeOne(t: string): (r: Option<(char, nat)>)
    requires |t| > 0
    ensures r.Some? ==> 1 <= r.value.1 <= |t|
  {
    if t[0] == '"' || IsControl(t[0]) then None
    else if t[0] != '\\' then Some((t[0], 1))
    else if |t| < 2 then None
    else if t[1] == '"' then Some(('"', 2))
    else if t[1] == '\\' then Some(('\\', 2))
    else if t[1] == 'b' then Some(('\U{8}', 2))
    else if t[1] == 'f' then Some(('\U{C}', 2))
    else if t[1] == 'n' then Some(('\n', 2))
    else if t[1] == 'r' then Some(('\r', 2))
    else if t[1] == 't' then Some(('\t', 2))
    else if t[1] == 'u' && |t| >= 6 && t[2] == '0' && t[3] == '0' then
      match (LowerHexValue(t[4]), LowerHexValue(t[5]))
      case (Some(hi), Some(lo)) => if hi < 2 then Some(((hi * 16 + lo) as char, 6)) else None
      case _ => None
    else None
  }

  /** Reads the characters of a string body; the reading partner of `EscapeString`. */
  function UnescapeString(t: string): Option<string>
    decreases |t|
  {
    if |t| == 0 then Some("")
    else match UnescapeOne(t)
      case None => None
      case Some((c, k)) =>
        match UnescapeString(t[k..])
        case None => None
        case Some(rest) => Some([c] + rest)
  }

  /** A control character without a short escape is written `\u00XX`. */
  predicate HexEscaped(c: char) {
    IsControl(c) && c != '\U{8}' && c != '\U{C}' && c != '\n' && c != '\r' && c != '\t'
  }

  lemma UnescapeHexEscape(c: char, rest: string)
    requires HexEscaped(c)
    ensures UnescapeOne(EscapeChar(c) + rest) == Some((c, 6))
  {
    var n := c as int;
    var hi, lo := n / 16, n % 16;
    assert n == hi * 16 + lo && hi < 2;
    var t := EscapeChar(c) + rest;
    assert EscapeChar(c) == "\\u00" + [LowerHex(hi), LowerHex(lo)];
    assert t[0] == '\\' && t[1] == 'u' && t[2] == '0' && t[3] == '0';
    assert LowerHexValue(t[4]) == Some(hi);
    assert LowerHexValue(t[5]) == Some(lo);
  }

  lemma UnescapeEscapeChar(c: char, rest: string)
    ensures UnescapeOne(EscapeChar(c) + rest) == Some((c, |EscapeChar(c)|))
  {
    if HexEscaped(c) {
      UnescapeHexEscape(c, rest);
    }
  }

  /** Reading back an escaped string body gives the string. */
  lemma {:induction false} EscapeRoundTrip(s: string)
    ensures UnescapeString(EscapeString(s)) == Some(s)
  {
    if |s| > 0 {
      var e := EscapeChar(s[0]);
      var t := EscapeString(s);
      assert t == e + EscapeString(s[1..]);
      UnescapeEscapeChar(s[0], EscapeString(s[1..]));
      assert t[|e|..] == EscapeString(s[1..]);
      EscapeRoundTrip(s[1..]);
      assert s == [s[0]] + s[1..];
    }
  }

  /** Distinct strings have distinct JSON literals. */
  lemma QuoteInjective(s: string, s': string)
    requires Quote(s) == Quote(s')
    ensures s == s'
  {
    assert EscapeString(s) == Quote(s)[1..|Quote(s)| - 1];
    assert EscapeString(s') == Quote(s')[1..|Quote(s')| - 1];
    EscapeRoundTrip(s);
    EscapeRoundTrip(s');
  }

  // ---------------------------------------------------------------------------
  // JSON.stringify
  // ---------------------------------------------------------------------------

  /** `parts` separated by commas. */
  function JoinComma(parts: seq<string>): (r: string)
    ensures (forall k :: 0 <= k < |parts| ==> NoControl(parts[k])) ==> NoControl(r)
  {
    if |parts| == 0 then ""
    else if |parts| == 1 then parts[0]
    else parts[0] + "," + JoinComma(parts[1..])
  }

  /** `JSON.stringify(j)` with no indentation. Integers print in decimal. */
  function Stringify(j: Json): (r: string)
    ensures 0 < |r|
    // the text is always one line: every control character is escaped
    ensures NoControl(r)
    decreases j
  {
    match j
    case JNull => "null"
    case JBool(b) => if b then "true" else "false"
    case JNumber(n) => NumberText(n)
    case JString(s) => Quote(s)
    case JArray(items) =>
      var parts := seq(|items|, i requires 0 <= i < |items| => Stringify(items[i]));
      "[" + JoinComma(parts) + "]"
    case JObject(members) =>
      var parts := seq(|members|, i requires 0 <= i < |members| => Member(members[i].0, members[i].1, j));
      "{" + JoinComma(parts) + "}"
  }

  function Member(key: string, value: Json, ghost parent: Json): (r: string)
    requires value < parent
    ensures NoControl(r)
    decreases parent, 0
  {
    Quote(key) + ":" + Stringify(value)
  }

  function NumberText(n: int): (r: string)
    ensures 0 < |r| && NoControl(r)
  {
    IntToStringRoundTrip(n);
    var r := IntToString(n);
    assert forall k :: 0 <= k < |r| ==> r[k] == '-' || IsDigit(r[k]) by {
      forall k | 0 <= k < |r| ensures r[k] == '-' || IsDigit(r[k]) {
        if r[0] == '-' && k > 0 { assert r[k] == r[1..][k - 1]; }
      }
    }
    r
  }

  /** A string value stringifies to its literal, which reads back to it. */
  lemma StringifyString(s: string)
    ensures Stringify(JString(s)) == Quote(s)
    ensures UnescapeString(Stringify(JString(s))[1..|Stringify(JString(s))| - 1]) == Some(s)
  {
    assert Quote(s)[1..|Quote(s)| - 1] == EscapeString(s);
    EscapeRoundTrip(s);
  }
}

=== FILE: login.dfy ===
/** Login entitlement computation of the Firebase login handler: ban check,
    user-id derivation from the email, default free limits, the demo-account
    and promo-code tier overrides, the "pro means unlimited" rule, and the
    fields of the issued token and of the JSON response.

    The handler is a pure function of the request, the runtime mode and the
    answers of its collaborators (ban list, promo-code service). The token
    signer is not modelled: the token is represented by the claims it signs. */
module Login {
  import opened JsValues

  /** Fields of the login request body, as sent by the client. */
  datatype LoginRequest = LoginRequest(
    idToken: Option<string>,
    provider: Option<string>,
    providerUserId: Option<string>,
    email: Option<string>,
    displayName: Option<string>,
    photoURL: Option<string>,
    couponCode: Option<string>)

  /** Connection data used only to label a promo-code redemption. */
  datatype Connection = Connection(ip: Option<string>, remoteAddress: Option<string>, userAgent: Option<string>)

  /** The permanent ban list: banned user ids and banned emails. */
  datatype BanList = BanList(userIds: set<string>, emails: set<string>)

  /** What the promo-code service reports about a code. */
  datatype Validation = Validation(isValid: bool, tier: Option<string>)

  /** The promo-code service's answers, fixed for one request. */
  datatype PromoAnswers = PromoAnswers(validate: Reply<Validation>, apply: Reply<bool>)

  /** Calls the handler makes on the promo-code service, in order. */
  datatype PromoCall =
    | ValidateCall(code: string, email: string, ip: string)
    | ApplyCall(code: string, email: string, userId: string, ip: string, userAgent: string)

  /** Tier and limits carried by both the token and the response. */
  datatype Entitlement = Entitlement(
    tier: string,
    usedPages: int,
    totalPages: int,
    maxShotsPerScene: int,
    canGenerateStoryboards: bool)

  /** Claims signed into the session token. */
  datatype Claims = Claims(
    id: string,
    email: string,
    displayName: Option<string>,
    tier: string,
    usedPages: int,
    totalPages: int,
    maxShotsPerScene: int,
    canGenerateStoryboards: bool)

  /** The JSON body returned on success. */
  datatype UserJson = UserJson(
    id: string,
    email: string,
    displayName: Option<string>,
    photoURL: Option<string>,
    tier: string,
    usedPages: int,
    totalPages: int,
    maxShotsPerScene: int,
    canGenerateStoryboards: bool)

  datatype LoginResponse =
    | Authenticated(token: Claims, body: UserJson)
    | Rejected(status: int, message: string, code: Option<string>)

  /** The response together with the promo-code service calls that were made. */
  datatype LoginOutcome = LoginOutcome(response: LoginResponse, promoCalls: seq<PromoCall>)

  const DemoEmail: string := "premium@demo.com"
  const BannedCode: string := "ACCOUNT_PERMANENTLY_DELETED"
  const BannedMessage: string :=
    "This account has been permanently deleted and cannot be restored. Please create a new account."
  const EmailRequiredMessage: string := "Email is required for authentication"
  const TokenRequiredMessage: string := "Firebase ID token is required"
  const FailureMessage: string := "Authentication failed"

  /** Limits every account starts with. */
  const FreeLimits: Entitlement := Entitlement("free", 0, 10, 5, false)

  /** Limits of a pro account: unlimited pages and shots, storyboards enabled. */
  predicate Unlimited(e: Entitlement) {
    e.totalPages == -1 && e.maxShotsPerScene == -1 && e.canGenerateStoryboards
  }

  /** The tier invariant: `pro` means unlimited. */
  predicate ProInvariant(e: Entitlement) {
    e.tier == "pro" ==> Unlimited(e)
  }

  // ---------------------------------------------------------------------------
  // User id derivation
  // ---------------------------------------------------------------------------

  /** The id can be derived without a runtime error: either the provider id is
      truthy or there is an email to rewrite (`undefined.replace` throws). */
  predicate IdDerivable(providerUserId: Option<string>, email: Option<string>) {
    Truthy(providerUserId) || email.Some?
  }

  /** `providerUserId || email.replace('@', '_').replace('.', '_')`. */
  function DerivedId(providerUserId: Option<string>, email: Option<string>): (id: string)
    requires IdDerivable(providerUserId, email)
    ensures Truthy(providerUserId) ==> id == providerUserId.value
    ensures !Truthy(providerUserId) ==> |id| == |email.value|
  {
    if Truthy(providerUserId) then providerUserId.value
    else ReplaceFirst(ReplaceFirst(email.value, '@', '_'), '.', '_')
  }

  /** An email-derived id has one `@` fewer than the email (when it had one),
      one `.` fewer when a dot remains after the first rewrite, and the same
      count of every other character except `_`. */
  lemma DerivedIdCounts(email: string)
    ensures var id := DerivedId(None, Some(email));
            && ('@' in email ==> multiset(id)['@'] == multiset(email)['@'] - 1)
            && ('@' !in email ==> multiset(id)['@'] == 0)
            && ('.' in email ==> multiset(id)['.'] == multiset(email)['.'] - 1)
            && (forall x :: x != '@' && x != '.' && x != '_' ==> multiset(id)[x] == multiset(email)[x])
  {
    var step := ReplaceFirst(email, '@', '_');
    ReplaceFirstCounts(email, '@', '_');
    ReplaceFirstCounts(step, '.', '_');
    assert multiset(step)['.'] == multiset(email)['.'];
    if '.' in email {
      assert '.' in multiset(step);
    }
  }

  /** When the local part holds a dot, its first dot is rewritten and every dot
      of the domain is kept. */
  lemma DerivedIdLocalDot(x: string, y: string, domain: string)
    requires '@' !in x && '@' !in y && '.' !in x
    ensures DerivedId(None, Some(x + "." + y + "@" + domain)) == x + "_" + y + "_" + domain
  {
    var email := x + "." + y + "@" + domain;
    assert email == (x + "." + y) + ['@'] + domain;
    assert '@' !in x + "." + y;
    ReplaceFirstSplit(x + "." + y, '@', '_', domain);
    var step := x + "." + y + "_" + domain;
    assert step == x + ['.'] + (y + "_" + domain);
    ReplaceFirstSplit(x, '.', '_', y + "_" + domain);
  }

  /** When the local part holds no dot, the first dot of the domain is rewritten
      instead. */
  lemma DerivedIdDomainDot(x: string, y: string, z: string)
    requires '@' !in x && '.' !in x && '.' !in y
    ensures DerivedId(None, Some(x + "@" + y + "." + z)) == x + "_" + y + "_" + z
  {
    var email := x + "@" + y + "." + z;
    var step := x + "_" + y + "." + z;
    assert ReplaceFirst(email, '@', '_') == step by {
      assert email == x + ['@'] + (y + "." + z);
      ReplaceFirstSplit(x, '@', '_', y + "." + z);
      assert x + ['_'] + (y + "." + z) == step;
    }
    assert ReplaceFirst(step, '.', '_') == x + "_" + y + "_" + z by {
      var pre := x + "_" + y;
      assert step == pre + ['.'] + z;
      assert forall k :: 0 <= k < |pre| ==> pre[k] != '.' by {
        forall k | 0 <= k < |pre| ensures pre[k] != '.' {
          if k < |x| { assert pre[k] == x[k]; }
          else if k > |x| { assert pre[k] == y[k - |x| - 1]; }
        }
      }
      ReplaceFirstSplit(pre, '.', '_', z);
    }
  }

  /** Two different emails derive the same user id: moving the `@` and the
      first `.` between the two positions yields the same id, so a ban on that
      id blocks both emails. */
  lemma DerivedIdCollision(x: string, y: string, domain: string)
    requires '@' !in x && '@' !in y && '.' !in x && '.' !in y
    ensures x + "." + y + "@" + domain != x + "@" + y + "." + domain
    ensures DerivedId(None, Some(x + "." + y + "@" + domain))
            == DerivedId(None, Some(x + "@" + y + "." + domain))
  {
    assert (x + "." + y + "@" + domain)[|x|] == '.';
    assert (x + "@" + y + "." + domain)[|x|] == '@';
    DerivedIdLocalDot(x, y, domain);
    DerivedIdDomainDot(x, y, domain);
  }

  // ---------------------------------------------------------------------------
  // The handler
  // ---------------------------------------------------------------------------

  /** The ban check: the derived id or the email is on the ban list. */
  predicate Banned(req: LoginRequest, bans: BanList)
    requires IdDerivable(req.providerUserId, req.email)
  {
    DerivedId(req.providerUserId, req.email) in bans.userIds
    || (req.email.Some? && req.email.value in bans.emails)
  }

  /** The request passes every check that precedes the promo-code step. */
  predicate Admitted(req: LoginRequest, devMode: bool, bans: BanList) {
    && IdDerivable(req.providerUserId, req.email)
    && !Banned(req, bans)
    && Truthy(req.email)
    && (Truthy(req.idToken) || devMode)
  }

  /** The tier the promo-code step grants, when it grants one: the code validated,
      it was applied, and the validation named a (non-empty) tier. */
  function PromoTier(v: Validation, applied: bool): Option<string> {
    if v.isValid && applied && Truthy(v.tier) then v.tier else None
  }

  /** The promo-code service validated the code, applied it, and named a tier. */
  predicate Grants(promo: PromoAnswers) {
    promo.validate.Returns? && promo.apply.Returns? && PromoTier(promo.validate.value, promo.apply.value).Some?
  }

  /** Result of the promo-code step: the tier it settles on (or an exception)
      and the service calls it made. */
  datatype Redemption = Redemption(tier: Reply<string>, calls: seq<PromoCall>)

  /** The promo-code step for a non-demo account that sent a truthy coupon. */
  function Redeem(code: string, email: string, id: string, conn: Connection, promo: PromoAnswers): (r: Redemption)
    ensures 1 <= |r.calls| <= 2
    ensures r.calls[0] == ValidateCall(code, email, OrElse(Or(conn.ip, conn.remoteAddress), "unknown"))
    // a code is applied only after it validated
    ensures |r.calls| == 2 <==> promo.validate.Returns? && promo.validate.value.isValid
    ensures |r.calls| == 2 ==> r.calls[1].ApplyCall? && r.calls[1].userId == id
    ensures r.tier.Throws? <==> promo.validate.Throws? || (promo.validate.value.isValid && promo.apply.Throws?)
    ensures r.tier.Returns? && Grants(promo) ==> r.tier.value == promo.validate.value.tier.value
    ensures r.tier.Returns? && !Grants(promo) ==> r.tier.value == "free"
  {
    var ip := OrElse(Or(conn.ip, conn.remoteAddress), "unknown");
    var agent := OrElse(conn.userAgent, "Unknown");
    var validateCall := ValidateCall(code, email, ip);
    match promo.validate
    case Throws => Redemption(Throws, [validateCall])
    case Returns(v) =>
      if !v.isValid then Redemption(Returns("free"), [validateCall])
      else
        var calls := [validateCall, ApplyCall(code, email, id, ip, agent)];
        match promo.apply
        case Throws => Redemption(Throws, calls)
        case Returns(applied) =>
          var granted := PromoTier(v, applied);
          Redemption(Returns(if granted.Some? then granted.value else "free"), calls)
  }

  /** The token claims and the response body agree on every shared field. */
  predicate Agree(c: Claims, b: UserJson) {
    && c.id == b.id && c.email == b.email && c.displayName == b.displayName
    && c.tier == b.tier && c.usedPages == b.usedPages && c.totalPages == b.totalPages
    && c.maxShotsPerScene == b.maxShotsPerScene && c.canGenerateStoryboards == b.canGenerateStoryboards
  }

  /** Entitlement carried by a set of claims. */
  function ClaimedEntitlement(c: Claims): Entitlement {
    Entitlement(c.tier, c.usedPages, c.totalPages, c.maxShotsPerScene, c.canGenerateStoryboards)
  }

  /** Issues the token and the response for a final tier: the free limits, widened
      to unlimited when the tier is `pro` (the demo account always has tier `pro`). */
  function Issue(id: string, email: string, req: LoginRequest, tier: string): (r: LoginResponse)
    ensures r.Authenticated? && Agree(r.token, r.body)
    ensures r.token.id == id && r.token.email == email && r.token.tier == tier
    ensures r.body.photoURL == req.photoURL && r.token.usedPages == 0
    ensures ProInvariant(ClaimedEntitlement(r.token))
    ensures tier != "pro" ==> ClaimedEntitlement(r.token) == FreeLimits.(tier := tier)
  {
    var e := if tier == "pro" then Entitlement(tier, 0, -1, -1, true) else FreeLimits.(tier := tier);
    Authenticated(
      Claims(id, email, req.displayName, e.tier, e.usedPages, e.totalPages, e.maxShotsPerScene,
             e.canGenerateStoryboards),
      UserJson(id, email, req.displayName, req.photoURL, e.tier, e.usedPages, e.totalPages,
               e.maxShotsPerScene, e.canGenerateStoryboards))
  }

  /** The Firebase login handler. `devMode` is `NODE_ENV === 'development'`. */
  function FirebaseLogin(req: LoginRequest, conn: Connection, devMode: bool, bans: BanList,
                         promo: PromoAnswers): (out: LoginOutcome)
    // an exception while deriving the id (no email to rewrite) is a 500
    ensures !IdDerivable(req.providerUserId, req.email) ==>
              out == LoginOutcome(Rejected(500, FailureMessage, None), [])
    // the ban check runs before every other check and issues no token
    ensures IdDerivable(req.providerUserId, req.email) && Banned(req, bans) ==>
              out == LoginOutcome(Rejected(403, BannedMessage, Some(BannedCode)), [])
    // missing email or token
    ensures IdDerivable(req.providerUserId, req.email) && !Banned(req, bans) && !Truthy(req.email) ==>
              out == LoginOutcome(Rejected(400, EmailRequiredMessage, None), [])
    ensures IdDerivable(req.providerUserId, req.email) && !Banned(req, bans) && Truthy(req.email)
            && !Truthy(req.idToken) && !devMode ==>
              out == LoginOutcome(Rejected(400, TokenRequiredMessage, None), [])
    // the promo-code service is consulted only for an admitted non-demo account with a coupon
    ensures |out.promoCalls| > 0 ==>
              Admitted(req, devMode, bans) && req.email.value != DemoEmail && Truthy(req.couponCode)
    // a token is issued exactly when the request is admitted and the promo step did not throw
    ensures out.response.Authenticated? ==> Admitted(req, devMode, bans)
    ensures Admitted(req, devMode, bans) ==>
              (out.response.Authenticated? <==>
                 || req.email.value == DemoEmail
                 || !Truthy(req.couponCode)
                 || Redeem(req.couponCode.value, req.email.value, DerivedId(req.providerUserId, req.email),
                           conn, promo).tier.Returns?)
    ensures Admitted(req, devMode, bans) && out.response.Rejected? ==>
              out.response == Rejected(500, FailureMessage, None)
    // a plain login (not the demo account, no coupon) gets the free limits and no promo call
    ensures Admitted(req, devMode, bans) && req.email.value != DemoEmail && !Truthy(req.couponCode) ==>
              && out.promoCalls == []
              && out.response.Authenticated?
              && ClaimedEntitlement(out.response.token) == FreeLimits
    // every issued token agrees with the response and keeps the tier invariant
    ensures out.response.Authenticated? ==>
              && Agree(out.response.token, out.response.body)
              && out.response.token.id == DerivedId(req.providerUserId, req.email)
              && out.response.token.email == req.email.value
              && ProInvariant(ClaimedEntitlement(out.response.token))
              && (out.response.token.tier != "pro" ==>
                    ClaimedEntitlement(out.response.token) == FreeLimits.(tier := out.response.token.tier))
  {
    if !IdDerivable(req.providerUserId, req.email) then
      LoginOutcome(Rejected(500, FailureMessage, None), [])
    else if Banned(req, bans) then
      LoginOutcome(Rejected(403, BannedMessage, Some(BannedCode)), [])
    else if !Truthy(req.email) then
      LoginOutcome(Rejected(400, EmailRequiredMessage, None), [])
    else if !Truthy(req.idToken) && !devMode then
      LoginOutcome(Rejected(400, TokenRequiredMessage, None), [])
    else
      var id := DerivedId(req.providerUserId, req.email);
      var email := req.email.value;
      if email == DemoEmail then
        LoginOutcome(Issue(id, email, req, "pro"), [])
      else if !Truthy(req.couponCode) then
        LoginOutcome(Issue(id, email, req, "free"), [])
      else
        var r := Redeem(req.couponCode.value, email, id, conn, promo);
        match r.tier
        case Throws => LoginOutcome(Rejected(500, FailureMessage, None), r.calls)
        case Returns(tier) => LoginOutcome(Issue(id, email, req, tier), r.calls)
  }

  // ---------------------------------------------------------------------------
  // Properties relating several logins
  // ---------------------------------------------------------------------------

  /** Which tier a successful login grants, stated without the handler's control flow:
      `pro` for the demo account, otherwise the tier a valid, applied code names,
      otherwise `free`. */
  lemma GrantedTier(req: LoginRequest, conn: Connection, devMode: bool, bans: BanList,
                    promo: PromoAnswers)
    requires FirebaseLogin(req, conn, devMode, bans, promo).response.Authenticated?
    ensures var tier := FirebaseLogin(req, conn, devMode, bans, promo).response.token.tier;
            && (req.email.value == DemoEmail ==> tier == "pro")
            && (req.email.value != DemoEmail && Truthy(req.couponCode) && Grants(promo) ==>
                  tier == promo.validate.value.tier.value)
            && (req.email.value != DemoEmail && (!Truthy(req.couponCode) || !Grants(promo)) ==>
                  tier == "free")
  {
  }

  /** A ban decides the outcome whatever the token, the coupon, the runtime mode
      or the promo-code service would have said. */
  lemma BanDominates(req: LoginRequest, conn: Connection, devMode: bool, bans: BanList,
                     promo: PromoAnswers, idToken': Option<string>, coupon': Option<string>,
                     conn': Connection, devMode': bool, promo': PromoAnswers)
    requires IdDerivable(req.providerUserId, req.email) && Banned(req, bans)
    ensures var req' := req.(idToken := idToken', couponCode := coupon');
            FirebaseLogin(req, conn, devMode, bans, promo)
              == FirebaseLogin(req', conn', devMode', bans, promo')
    ensures FirebaseLogin(req, conn, devMode, bans, promo).response.Rejected?
  {
  }

  /** Banning an email blocks its login whichever provider id accompanies it. */
  lemma BannedEmailBlocked(req: LoginRequest, conn: Connection, devMode: bool, bans: BanList,
                           promo: PromoAnswers)
    requires req.email.Some? && req.email.value in bans.emails
    ensures FirebaseLogin(req, conn, devMode, bans, promo).response
              == Rejected(403, BannedMessage, Some(BannedCode))
  {
  }

  /** The demo account is `pro` and never touches the promo-code service, so any
      coupon it sends is ignored. */
  lemma DemoIgnoresCoupon(req: LoginRequest, conn: Connection, devMode: bool, bans: BanList,
                          promo: PromoAnswers, coupon': Option<string>, promo': PromoAnswers)
    requires Admitted(req, devMode, bans) && req.email == Some(DemoEmail)
    ensures var out := FirebaseLogin(req, conn, devMode, bans, promo);
            && out.promoCalls == []
            && out.response.Authenticated?
            && out.response.token.tier == "pro"
            && out == FirebaseLogin(req.(couponCode := coupon'), conn, devMode, bans, promo')
  {
  }

  /** An invalid code is never applied and leaves the account on the free tier. */
  lemma InvalidCodeNotApplied(req: LoginRequest, conn: Connection, devMode: bool, bans: BanList,
                              promo: PromoAnswers)
    requires Admitted(req, devMode, bans) && req.email.value != DemoEmail && Truthy(req.couponCode)
    requires promo.validate.Returns? && !promo.validate.value.isValid
    ensures var out := FirebaseLogin(req, conn, devMode, bans, promo);
            && |out.promoCalls| == 1
            && out.response.Authenticated?
            && out.response.body.tier == "free"
            && out.response.body.totalPages == 10
  {
  }
}

=== FILE: payment.dfy ===
/** The payment gateway routes: payment creation, the success callback as a
    state machine over the transaction ledger and the user store, and the
    failure callback's redirect.

    One callback is processed at a time. Store calls that throw are given as
    inputs (`Faults`); the current time is an input; the token signer is not
    modelled: the re-issued token is the user record it is built from. */
module Payment {
  import opened JsValues
  import opened UriEncoding

  // ---------------------------------------------------------------------------
  // Data model
  // ---------------------------------------------------------------------------

  datatype TxStatus = Success | Failed

  /** A ledger row. The amount is kept as the text the gateway sent; its
      conversion to paise is not modelled. */
  datatype LedgerEntry = LedgerEntry(
    userId: string,
    email: string,
    transactionId: Option<string>,
    payuTxnId: Option<string>,
    amountText: Option<string>,
    status: TxStatus,
    errorMessage: Option<string>)

  /** The ledger is keyed by the transaction id it was given, which may itself be
      `undefined` when the gateway sent neither id. */
  type Ledger = map<Option<string>, LedgerEntry>

  datatype User = User(
    id: nat,
    firebaseUID: Option<string>,
    email: string,
    tier: string,
    totalPages: int,
    maxShotsPerScene: int,
    canGenerateStoryboards: bool,
    payuTransactionId: Option<string>,
    paymentMethod: Option<string>,
    paymentStatus: Option<string>)

  /** The user store, read by email. */
  type Users = map<string, User>

  datatype PaymentState = PaymentState(ledger: Ledger, users: Users)

  /** Fields of the gateway's callback body. */
  datatype Callback = Callback(
    txnid: Option<string>,
    status: Option<string>,
    amount: Option<string>,
    firstname: Option<string>,
    email: Option<string>,
    mihpayid: Option<string>)

  /** Which store calls throw during one callback. */
  datatype Faults = Faults(
    lookupFails: bool,
    ledgerReadFails: bool,
    ledgerWriteFails: bool,
    updateFails: bool,
    reissueFails: bool)

  const NoFaults: Faults := Faults(false, false, false, false, false)

  /** What the callback ends in; each outcome is one redirect. */
  datatype CallbackOutcome =
    | Upgraded(token: User)
    | AlreadyProcessed
    | AccountNotFound
    | UpgradePending
    | NotSuccessful

  function RedirectUrl(o: CallbackOutcome): string {
    match o
    case Upgraded(_) => "/dashboard?status=success&message=Payment successful! Welcome to IndieShots Pro!"
    case AlreadyProcessed => "/dashboard?status=success&message=Payment already processed! Welcome to IndieShots Pro!"
    case AccountNotFound => "/upgrade?status=error&message=Account not found. Please contact support."
    case UpgradePending => "/upgrade?status=warning&message=Payment successful but upgrade pending. Contact support."
    case NotSuccessful => "/upgrade?status=error&message=Payment was not successful. Please try again."
  }

  /** The tier invariant on a stored user: `pro` means unlimited. */
  predicate ProInvariant(u: User) {
    u.tier == "pro" ==> u.totalPages == -1 && u.maxShotsPerScene == -1 && u.canGenerateStoryboards
  }

  predicate AllProInvariant(users: Users) {
    forall e :: e in users ==> ProInvariant(users[e])
  }

  // ---------------------------------------------------------------------------
  // POST /create
  // ---------------------------------------------------------------------------

  datatype CreateResponse =
    | PaymentRequest(email: string, firstname: string, phone: string)
    | CreateFailed(status: int, error: string)

  /** Validates the fields and passes them to the gateway service, which builds
      the signed request (not modelled); `serviceFails` says whether that call throws. */
  function CreatePayment(email: Option<string>, firstname: Option<string>, phone: Option<string>,
                         serviceFails: bool): (r: CreateResponse)
    ensures !Truthy(email) || !Truthy(firstname) ==> r == CreateFailed(400, "Email and firstname are required")
    ensures Truthy(email) && Truthy(firstname) && serviceFails ==> r == CreateFailed(500, "Failed to create payment")
    ensures r.PaymentRequest? <==> Truthy(email) && Truthy(firstname) && !serviceFails
    // the request carries the caller's fields, none of them empty
    ensures r.PaymentRequest? ==>
              && r.email == email.value && r.firstname == firstname.value
              && (Truthy(phone) ==> r.phone == phone.value)
              && (!Truthy(phone) ==> r.phone == "9999999999")
              && r.email != "" && r.firstname != "" && r.phone != ""
  {
    if !Truthy(email) || !Truthy(firstname) then CreateFailed(400, "Email and firstname are required")
    else if serviceFails then CreateFailed(500, "Failed to create payment")
    else PaymentRequest(email.value, firstname.value, OrElse(phone, "9999999999"))
  }

  /** A built request, sent again with its own fields, is accepted and built
      unchanged: validation and the phone default are settled after one pass. */
  lemma CreatePaymentResubmit(email: Option<string>, firstname: Option<string>, phone: Option<string>)
    requires CreatePayment(email, firstname, phone, false).PaymentRequest?
    ensures var r := CreatePayment(email, firstname, phone, false);
            CreatePayment(Some(r.email), Some(r.firstname), Some(r.phone), false) == r
  {
  }

  /** Whether a request is rejected as incomplete does not depend on the phone. */
  lemma CreatePaymentPhoneOptional(email: Option<string>, firstname: Option<string>,
                                   phone: Option<string>, phone': Option<string>, serviceFails: bool)
    ensures CreatePayment(email, firstname, phone, serviceFails).CreateFailed?
            == CreatePayment(email, firstname, phone', serviceFails).CreateFailed?
  {
  }

  // ---------------------------------------------------------------------------
  // POST /success
  // ---------------------------------------------------------------------------

  /** Only these three spellings take the upgrade path. */
  predicate IsSuccessStatus(status: Option<string>) {
    status == Some("success") || status == Some("Success") || status == Some("SUCCESS")
  }

  /** `mihpayid || txnid`. */
  function TxKey(cb: Callback): Option<string> {
    Or(cb.mihpayid, cb.txnid)
  }

  /** `mihpayid || txnid || 'failed_' + now`: never `undefined`. */
  function FailedTxKey(cb: Callback, now: nat): Option<string> {
    Or(TxKey(cb), Some("failed_" + IntToString(now)))
  }

  /** `user.firebaseUID || user.id.toString()`. */
  function LedgerUserId(u: User): string {
    OrElse(u.firebaseUID, IntToString(u.id))
  }

  /** The user the callback's email names, if any. */
  predicate HasUser(st: PaymentState, cb: Callback) {
    cb.email.Some? && cb.email.value in st.users
  }

  predicate AlreadySucceeded(ledger: Ledger, key: Option<string>) {
    key in ledger && ledger[key].status == Success
  }

  /** The pro upgrade applied to a user after a payment. */
  function Upgrade(u: User, key: Option<string>): (v: User)
    ensures ProInvariant(v) && v.tier == "pro"
    ensures v.id == u.id && v.email == u.email && v.firebaseUID == u.firebaseUID
    ensures v.payuTransactionId == key
  {
    u.(tier := "pro", totalPages := -1, maxShotsPerScene := -1, canGenerateStoryboards := true,
       payuTransactionId := key, paymentMethod := Some("payu"), paymentStatus := Some("active"))
  }

  /** Two users without a Firebase UID and with different numeric ids get
      different ledger user ids. */
  lemma LedgerUserIdDistinct(u: User, v: User)
    requires !Truthy(u.firebaseUID) && !Truthy(v.firebaseUID) && u.id != v.id
    ensures LedgerUserId(u) != LedgerUserId(v)
  {
    if LedgerUserId(u) == LedgerUserId(v) {
      IntToStringInjective(u.id, v.id);
    }
  }

  function SuccessEntry(u: User, cb: Callback): LedgerEntry {
    LedgerEntry(LedgerUserId(u), u.email, TxKey(cb), cb.txnid, cb.amount, Success, None)
  }

  function FailedEntry(u: User, cb: Callback, now: nat): LedgerEntry {
    LedgerEntry(LedgerUserId(u), u.email, FailedTxKey(cb, now), cb.txnid, Some(OrElse(cb.amount, "999")),
                Failed, Some("Payment failed with status: " + Interpolate(cb.status)))
  }

  /** The success path: look the user up, deduplicate on the ledger, write the
      ledger entry, upgrade the user, re-read it and re-issue the token. Any
      store exception ends in the "upgrade pending" redirect with the writes
      done so far kept. */
  function ProcessSuccess(st: PaymentState, cb: Callback, f: Faults): (r: (PaymentState, CallbackOutcome))
    requires IsSuccessStatus(cb.status)
  {
    if f.lookupFails then (st, UpgradePending)
    else if !HasUser(st, cb) then (st, AccountNotFound)
    else
      var u := st.users[cb.email.value];
      var key := TxKey(cb);
      if f.ledgerReadFails then (st, UpgradePending)
      else if AlreadySucceeded(st.ledger, key) then (st, AlreadyProcessed)
      else if f.ledgerWriteFails then (st, UpgradePending)
      else
        var recorded := st.(ledger := st.ledger[key := SuccessEntry(u, cb)]);
        if f.updateFails then (recorded, UpgradePending)
        else
          var upgraded := recorded.(users := recorded.users[cb.email.value := Upgrade(u, key)]);
          if f.reissueFails then (upgraded, UpgradePending)
          else (upgraded, Upgraded(upgraded.users[cb.email.value]))
  }

  /** The non-success path: record a failed entry when the user exists; every
      error while recording is swallowed. */
  function ProcessFailure(st: PaymentState, cb: Callback, f: Faults, now: nat): (r: (PaymentState, CallbackOutcome))
  {
    if f.lookupFails || !HasUser(st, cb) || f.ledgerWriteFails then (st, NotSuccessful)
    else
      var u := st.users[cb.email.value];
      (st.(ledger := st.ledger[FailedTxKey(cb, now) := FailedEntry(u, cb, now)]), NotSuccessful)
  }

  /** The success callback: one transition of (ledger, users). */
  function HandleCallback(st: PaymentState, cb: Callback, f: Faults, now: nat): (r: (PaymentState, CallbackOutcome))
    // a non-success status never changes a user, and at most adds a failed entry for an existing user
    ensures !IsSuccessStatus(cb.status) ==>
              && r.1 == NotSuccessful
              && r.0.users == st.users
              && (r.0.ledger != st.ledger ==>
                    && HasUser(st, cb) && Truthy(FailedTxKey(cb, now))
                    && r.0.ledger == st.ledger[FailedTxKey(cb, now) := FailedEntry(st.users[cb.email.value], cb, now)])
              && (HasUser(st, cb) && !f.lookupFails && !f.ledgerWriteFails ==>
                    FailedTxKey(cb, now) in r.0.ledger && r.0.ledger[FailedTxKey(cb, now)].status == Failed)
    // on the success path the ledger changes only by the success entry under the key
    ensures IsSuccessStatus(cb.status) && r.0.ledger != st.ledger ==>
              && HasUser(st, cb)
              && r.0.ledger == st.ledger[TxKey(cb) := SuccessEntry(st.users[cb.email.value], cb)]
    // a fault up to and including the ledger write leaves the state as it was
    ensures IsSuccessStatus(cb.status) && (f.lookupFails || f.ledgerReadFails || f.ledgerWriteFails) ==>
              r.0 == st && !r.1.Upgraded?
    // on the success path, an unknown email changes nothing
    ensures IsSuccessStatus(cb.status) && !f.lookupFails && !HasUser(st, cb) ==>
              r == (st, AccountNotFound)
    // a transaction already recorded as successful changes nothing
    ensures IsSuccessStatus(cb.status) && !f.lookupFails && !f.ledgerReadFails && HasUser(st, cb)
            && AlreadySucceeded(st.ledger, TxKey(cb)) ==>
              r == (st, AlreadyProcessed)
    // the ledger is written before the upgrade: a changed user implies a success entry under the key
    ensures r.0.users != st.users ==>
              && IsSuccessStatus(cb.status) && HasUser(st, cb)
              && !AlreadySucceeded(st.ledger, TxKey(cb))
              && AlreadySucceeded(r.0.ledger, TxKey(cb))
              && r.0.users == st.users[cb.email.value := Upgrade(st.users[cb.email.value], TxKey(cb))]
    // a first success with no faults records the entry, upgrades the user and re-issues a pro token
    ensures IsSuccessStatus(cb.status) && f == NoFaults && HasUser(st, cb) && !AlreadySucceeded(st.ledger, TxKey(cb)) ==>
              && r.0.ledger == st.ledger[TxKey(cb) := SuccessEntry(st.users[cb.email.value], cb)]
              && r.1.Upgraded?
              && r.1.token.tier == "pro" && ProInvariant(r.1.token)
              && r.1.token.payuTransactionId == TxKey(cb)
              && r.1 == Upgraded(r.0.users[cb.email.value])
    // the re-issued token is the user as stored after the upgrade
    ensures r.1.Upgraded? ==> HasUser(r.0, cb) && r.1.token == r.0.users[cb.email.value]
  {
    if IsSuccessStatus(cb.status) then ProcessSuccess(st, cb, f)
    else ProcessFailure(st, cb, f, now)
  }

  // ---------------------------------------------------------------------------
  // Properties over several callbacks
  // ---------------------------------------------------------------------------

  /** No callback breaks the tier invariant of the user store. */
  lemma CallbackKeepsProInvariant(st: PaymentState, cb: Callback, f: Faults, now: nat)
    requires AllProInvariant(st.users)
    ensures AllProInvariant(HandleCallback(st, cb, f, now).0.users)
  {
  }

  /** Replaying a success callback whose entry was recorded is reported as
      already processed and changes nothing, whatever happened after the
      ledger write the first time. */
  lemma ReplayIsAlreadyProcessed(st: PaymentState, cb: Callback, f: Faults, now: nat, f': Faults, now': nat)
    requires IsSuccessStatus(cb.status) && HasUser(st, cb)
    requires AlreadySucceeded(HandleCallback(st, cb, f, now).0.ledger, TxKey(cb))
    requires !f'.lookupFails && !f'.ledgerReadFails
    ensures var st1 := HandleCallback(st, cb, f, now).0;
            HandleCallback(st1, cb, f', now') == (st1, AlreadyProcessed)
  {
    var st1 := HandleCallback(st, cb, f, now).0;
    assert st1.users.Keys >= st.users.Keys;
  }

  /** A success callback applied twice has the effect of applying it once. */
  lemma SuccessIdempotent(st: PaymentState, cb: Callback, now: nat, now': nat)
    requires IsSuccessStatus(cb.status) && HasUser(st, cb)
    ensures var st1 := HandleCallback(st, cb, NoFaults, now).0;
            HandleCallback(st1, cb, NoFaults, now') == (st1, AlreadyProcessed)
  {
    ReplayIsAlreadyProcessed(st, cb, NoFaults, now, NoFaults, now');
  }

  /** When the upgrade write fails after the ledger write, the payment is on the
      ledger but the user is not upgraded, and a replay of the same callback does
      not upgrade it either: the upgrade is left to manual follow-up. */
  lemma FailedUpgradeNotRetried(st: PaymentState, cb: Callback, now: nat)
    requires IsSuccessStatus(cb.status) && HasUser(st, cb) && !AlreadySucceeded(st.ledger, TxKey(cb))
    ensures var first := HandleCallback(st, cb, NoFaults.(updateFails := true), now);
            && first.1 == UpgradePending
            && first.0.users == st.users
            && AlreadySucceeded(first.0.ledger, TxKey(cb))
            && HandleCallback(first.0, cb, NoFaults, now) == (first.0, AlreadyProcessed)
  {
  }

  // ---------------------------------------------------------------------------
  // POST /failure
  // ---------------------------------------------------------------------------

  /** `error_Message || 'Payment failed'`, percent-encoded into the redirect. */
  function FailureRedirect(errorMessage: Option<string>): (url: string)
    ensures var prefix := "/upgrade?status=error&message=";
            && |url| >= |prefix| && url[..|prefix|] == prefix
            && DecodeURIComponent(url[|prefix|..]) == Some(OrElse(errorMessage, "Payment failed"))
  {
    var prefix := "/upgrade?status=error&message=";
    var message := OrElse(errorMessage, "Payment failed");
    var url := prefix + EncodeURIComponent(message);
    EncodeDecodeRoundTrip(message);
    assert url[|prefix|..] == EncodeURIComponent(message);
    url
  }
}

=== FILE: scenes.dfy ===
/** Scene and shot routes: job ownership, the per-job scene cache, the free-tier
    shot clamp with its warning, the defaulting of stored shot records, the
    "replace all shots of one scene" store update, the all-shots listing and the
    usage-statistics guard.

    Stores are values: parse jobs and scripts are maps by id, the shot table is
    the sequence of its rows in insertion order, the scene cache is a map by key.
    The scene extractor, the AI shot generator and the quota manager are
    collaborators whose answers are inputs. */
module Scenes {
  import opened JsValues

  // ---------------------------------------------------------------------------
  // Data model
  // ---------------------------------------------------------------------------

  /** A scene as extracted from a script. */
  datatype Scene = Scene(
    sceneHeading: Option<string>,
    location: Option<string>,
    timeOfDay: Option<string>,
    tone: Option<string>,
    content: Option<string>,
    text: Option<string>,
    rawTextContent: Option<string>)

  /** The `fullParseData` column of a parse job: an already structured value
      (whose `scenes`, when absent or falsy, reads as the empty list), or JSON
      text together with the outcome of `JSON.parse` on it (`None` when it throws). */
  datatype ParseData =
    | Structured(scenes: seq<Scene>)
    | JsonText(parsed: Option<seq<Scene>>)

  datatype ParseJob = ParseJob(id: int, userId: string, scriptId: int, fullParseData: ParseData)

  datatype Script = Script(id: int, content: Option<string>)

  /** The decoded session token of the caller. */
  datatype Requester = Requester(uid: Option<string>, id: Option<string>, tier: Option<string>)

  /** Text fields of a shot. The last four of `SceneHeading .. Tone` fall back to
      the scene's own value. */
  datatype Field =
    | ShotDescription | ShotType | Lens | Movement | MoodAndAmbience | Lighting | Props
    | Notes | SoundDesign | ColourTemp | SceneHeading | Location | TimeOfDay | Tone
    | Characters | Action | Dialogue

  const AllFields: set<Field> := {
    ShotDescription, ShotType, Lens, Movement, MoodAndAmbience, Lighting, Props,
    Notes, SoundDesign, ColourTemp, SceneHeading, Location, TimeOfDay, Tone,
    Characters, Action, Dialogue }

  /** A shot as the generator returns it; a field missing from `fields` is `undefined`. */
  datatype GeneratedShot = GeneratedShot(
    shotNumber: Option<int>,
    displayShotNumber: Option<string>,
    fields: map<Field, string>)

  /** A row of the shot table. */
  datatype ShotRecord = ShotRecord(
    parseJobId: int,
    sceneIndex: int,
    userId: Option<string>,
    shotNumberInScene: int,
    displayShotNumber: string,
    fields: map<Field, string>)

  /** The warning merged into the response when the free-tier clamp cut shots. */
  datatype TierLimitWarning = TierLimitWarning(
    limitApplied: bool,
    message: string,
    totalGenerated: int,
    limitedTo: int)

  const FreeShotLimit: nat := 5
  const FreeLimitMessage: string :=
    "Free tier limited to 5 shots per scene. Upgrade to Pro for unlimited shots."
  const JobNotFound: string := "Parse job not found"

  // ---------------------------------------------------------------------------
  // Caller identity and ownership
  // ---------------------------------------------------------------------------

  /** `user?.uid || user?.id`. */
  function RequesterId(user: Requester): Option<string> {
    Or(user.uid, user.id)
  }

  /** `user?.tier || 'free'`. */
  function RequesterTier(user: Requester): string {
    OrElse(user.tier, "free")
  }

  /** The job exists and its owner is exactly the caller's id. */
  predicate Owns(jobs: map<int, ParseJob>, jobId: int, user: Requester) {
    jobId in jobs && RequesterId(user) == Some(jobs[jobId].userId)
  }

  // ---------------------------------------------------------------------------
  // The shot table
  // ---------------------------------------------------------------------------

  predicate At(r: ShotRecord, job: int, scene: int) {
    r.parseJobId == job && r.sceneIndex == scene
  }

  /** `storage.getShots(job, scene)`: the rows of one scene, in table order. */
  function ShotsFor(table: seq<ShotRecord>, job: int, scene: int): (r: seq<ShotRecord>)
    ensures forall k :: 0 <= k < |r| ==> At(r[k], job, scene)
  {
    if |table| == 0 then []
    else
      assert table == [table[0]] + table[1..];
      (if At(table[0], job, scene) then [table[0]] else []) + ShotsFor(table[1..], job, scene)
  }

  /** `storage.deleteShots(job, scene)`: the table without the rows of one scene. */
  function DeleteShots(table: seq<ShotRecord>, job: int, scene: int): (r: seq<ShotRecord>)
    ensures forall k :: 0 <= k < |r| ==> !At(r[k], job, scene)
  {
    if |table| == 0 then []
    else
      assert table == [table[0]] + table[1..];
      (if At(table[0], job, scene) then [] else [table[0]]) + DeleteShots(table[1..], job, scene)
  }

  lemma {:induction false} ShotsForAppend(a: seq<ShotRecord>, b: seq<ShotRecord>, job: int, scene: int)
    ensures ShotsFor(a + b, job, scene) == ShotsFor(a, job, scene) + ShotsFor(b, job, scene)
  {
    if |a| > 0 {
      assert (a + b)[1..] == a[1..] + b;
      ShotsForAppend(a[1..], b, job, scene);
    } else {
      assert a + b == b;
    }
  }

  /** Reading one scene after deleting another leaves it as it was; reading the
      deleted scene finds nothing. */
  lemma {:induction false} ShotsForAfterDelete(table: seq<ShotRecord>, job: int, scene: int, j: int, s: int)
    ensures ShotsFor(DeleteShots(table, job, scene), j, s)
            == if j == job && s == scene then [] else ShotsFor(table, j, s)
  {
    if |table| > 0 {
      ShotsForAfterDelete(table[1..], job, scene, j, s);
      var head := if At(table[0], job, scene) then [] else [table[0]];
      ShotsForAppend(head, DeleteShots(table[1..], job, scene), j, s);
    }
  }

  /** Rows that all belong to one scene read back whole from that scene and not
      at all from any other. */
  lemma {:induction false} ShotsForUniform(rows: seq<ShotRecord>, job: int, scene: int, j: int, s: int)
    requires forall k :: 0 <= k < |rows| ==> At(rows[k], job, scene)
    ensures ShotsFor(rows, j, s) == if j == job && s == scene then rows else []
  {
    if |rows| > 0 {
      ShotsForUniform(rows[1..], job, scene, j, s);
      assert rows == [rows[0]] + rows[1..];
    }
  }

  /** Delete-then-create of one scene's rows: that scene now holds exactly the
      new rows, in order, and every other scene of every job reads as before. */
  lemma ReplaceSceneShots(table: seq<ShotRecord>, job: int, scene: int, rows: seq<ShotRecord>, j: int, s: int)
    requires forall k :: 0 <= k < |rows| ==> At(rows[k], job, scene)
    ensures ShotsFor(DeleteShots(table, job, scene) + rows, j, s)
            == if j == job && s == scene then rows else ShotsFor(table, j, s)
  {
    ShotsForAppend(DeleteShots(table, job, scene), rows, j, s);
    ShotsForAfterDelete(table, job, scene, j, s);
    ShotsForUniform(rows, job, scene, j, s);
  }

  // ---------------------------------------------------------------------------
  // Free-tier clamp
  // ---------------------------------------------------------------------------

  /** The tier rule applied to the generated shots: for `free`, more than five
      shots are cut to the first five and a warning records the cut. */
  function ApplyTierLimit(tier: string, generated: seq<GeneratedShot>): (r: (seq<GeneratedShot>, Option<TierLimitWarning>))
    // the kept shots are always a prefix of the generated ones, in their order
    ensures |r.0| <= |generated| && r.0 == generated[..|r.0|]
    ensures tier == "free" ==> |r.0| == if |generated| > FreeShotLimit then FreeShotLimit else |generated|
    ensures tier != "free" ==> r.0 == generated
    // a warning is attached exactly when shots were cut, and it reports the cut
    ensures r.1.Some? <==> |r.0| < |generated|
    ensures r.1.Some? ==> r.1.value == TierLimitWarning(true, FreeLimitMessage, |generated|, FreeShotLimit)
  {
    if tier == "free" && |generated| > FreeShotLimit then
      (generated[..FreeShotLimit],
       Some(TierLimitWarning(true, FreeLimitMessage, |generated|, FreeShotLimit)))
    else (generated, None)
  }

  // ---------------------------------------------------------------------------
  // Stored record defaulting
  // ---------------------------------------------------------------------------

  predicate FromScene(f: Field) {
    f == SceneHeading || f == Location || f == TimeOfDay || f == Tone
  }

  function SceneValue(scene: Scene, f: Field): Option<string> {
    match f
    case SceneHeading => scene.sceneHeading
    case Location => scene.location
    case TimeOfDay => scene.timeOfDay
    case Tone => scene.tone
    case _ => None
  }

  function ShotValue(shot: GeneratedShot, f: Field): Option<string> {
    if f in shot.fields then Some(shot.fields[f]) else None
  }

  /** `shot.f || ''`, or `shot.f || scene.f || ''` for the scene-inherited fields. */
  function StoredValue(shot: GeneratedShot, scene: Scene, f: Field): string {
    if FromScene(f) then OrElse(Or(ShotValue(shot, f), SceneValue(scene, f)), "")
    else OrElse(ShotValue(shot, f), "")
  }

  /** The record stored for the shot at position `index` of the kept list. */
  function MakeRecord(shot: GeneratedShot, index: nat, job: int, sceneIndex: int,
                      userId: Option<string>, scene: Scene): ShotRecord {
    ShotRecord(job, sceneIndex, userId,
               OrElseInt(shot.shotNumber, index + 1),
               OrElse(shot.displayShotNumber, IntToString(index + 1)),
               map f | f in AllFields :: StoredValue(shot, scene, f))
  }

  function MakeRecords(shots: seq<GeneratedShot>, job: int, sceneIndex: int,
                       userId: Option<string>, scene: Scene): (r: seq<ShotRecord>)
    ensures |r| == |shots|
    ensures forall k :: 0 <= k < |r| ==> r[k] == MakeRecord(shots[k], k, job, sceneIndex, userId, scene)
  {
    seq(|shots|, k requires 0 <= k < |shots| => MakeRecord(shots[k], k, job, sceneIndex, userId, scene))
  }

  /** What a stored text field means: it is empty exactly when neither the shot
      nor (for an inherited field) the scene has a value, and a truthy value of
      the shot's own always wins over the scene's. */
  lemma StoredValueMeaning(shot: GeneratedShot, scene: Scene, f: Field)
    ensures StoredValue(shot, scene, f) == ""
            <==> !Truthy(ShotValue(shot, f)) && (!FromScene(f) || !Truthy(SceneValue(scene, f)))
    ensures Truthy(ShotValue(shot, f)) ==> StoredValue(shot, scene, f) == shot.fields[f]
    ensures !Truthy(ShotValue(shot, f)) && FromScene(f) && Truthy(SceneValue(scene, f)) ==>
              StoredValue(shot, scene, f) == SceneValue(scene, f).value
  {
  }

  /** The identity and numbering of a stored record: it belongs to the scene and
      caller it was generated for, every text field is defined, and both shot
      numbers fall back to the 1-based position, so neither is ever falsy. */
  lemma RecordNumbering(shot: GeneratedShot, index: nat, job: int, sceneIndex: int,
                        userId: Option<string>, scene: Scene)
    ensures var r := MakeRecord(shot, index, job, sceneIndex, userId, scene);
            && At(r, job, sceneIndex) && r.userId == userId
            && r.shotNumberInScene != 0
            && (TruthyInt(shot.shotNumber) ==> r.shotNumberInScene == shot.shotNumber.value)
            && (!TruthyInt(shot.shotNumber) ==> r.shotNumberInScene == index + 1)
            && r.displayShotNumber != ""
            && (Truthy(shot.displayShotNumber) ==> r.displayShotNumber == shot.displayShotNumber.value)
            && (!Truthy(shot.displayShotNumber) ==>
                  AllDigits(r.displayShotNumber) && ParseNat(r.displayShotNumber) == index + 1)
  {
    NatToStringRoundTrip(index + 1);
    NatToStringWellFormed(index + 1);
  }

  /** Every text field of a stored record is defined, with the value the
      defaulting rule gives it. */
  lemma RecordFieldsDefined(shot: GeneratedShot, index: nat, job: int, sceneIndex: int,
                            userId: Option<string>, scene: Scene, f: Field)
    ensures f in MakeRecord(shot, index, job, sceneIndex, userId, scene).fields
    ensures MakeRecord(shot, index, job, sceneIndex, userId, scene).fields[f] == StoredValue(shot, scene, f)
  {
  }

  // ---------------------------------------------------------------------------
  // POST /shots/generate/:jobId/:sceneIndex
  // ---------------------------------------------------------------------------

  /** Arguments of the call into the AI shot generator. */
  datatype GeneratorCall = GeneratorCall(sceneText: string, sceneHeading: string, sceneNumber: int)

  /** Which store writes throw. */
  datatype WriteFaults = WriteFaults(deleteFails: bool, createFails: bool)

  datatype GenerateResponse =
    | Generated(shotCount: nat, shots: seq<ShotRecord>, warning: Option<TierLimitWarning>)
    | GenerateFailed(status: int, error: string)

  datatype GenerateOutcome = GenerateOutcome(
    response: GenerateResponse,
    table: seq<ShotRecord>,
    generatorCall: Option<GeneratorCall>)

  /** Scenes of a parse job as the generate route reads them; `None` when the
      JSON text does not parse. */
  function GenerateScenes(data: ParseData): Option<seq<Scene>> {
    match data
    case Structured(scenes) => Some(scenes)
    case JsonText(parsed) => parsed
  }

  /** `scene.content || scene.text || scene.rawTextContent || ''`. */
  function SceneText(scene: Scene): string {
    OrElse(Or(Or(scene.content, scene.text), scene.rawTextContent), "")
  }

  /** Owner, parseable data and an existing scene: everything the route checks
      before it calls the generator. */
  predicate CanGenerate(jobs: map<int, ParseJob>, user: Requester, jobId: int, sceneIndex: int) {
    && Owns(jobs, jobId, user)
    && GenerateScenes(jobs[jobId].fullParseData).Some?
    && 0 <= sceneIndex < |GenerateScenes(jobs[jobId].fullParseData).value|
  }

  function GenerateShots(jobs: map<int, ParseJob>, table: seq<ShotRecord>, user: Requester,
                         jobId: int, sceneIndex: int, generated: Reply<seq<GeneratedShot>>,
                         faults: WriteFaults): (out: GenerateOutcome)
    // a missing or foreign job is a 404 with no store change and no generation
    ensures !Owns(jobs, jobId, user) ==>
              out == GenerateOutcome(GenerateFailed(404, JobNotFound), table, None)
    ensures Owns(jobs, jobId, user) && GenerateScenes(jobs[jobId].fullParseData).None? ==>
              out == GenerateOutcome(GenerateFailed(400, "Invalid parse data format"), table, None)
    // a scene index outside the job's scenes is a 404 before any generation
    ensures Owns(jobs, jobId, user) && GenerateScenes(jobs[jobId].fullParseData).Some?
            && !(0 <= sceneIndex < |GenerateScenes(jobs[jobId].fullParseData).value|) ==>
              out == GenerateOutcome(GenerateFailed(404, "Scene not found"), table, None)
    ensures out.generatorCall.Some? <==> CanGenerate(jobs, user, jobId, sceneIndex)
    ensures out.generatorCall.Some? ==> out.generatorCall.value.sceneNumber == sceneIndex + 1
    // the table changes only through the delete-then-create of the one scene
    ensures out.table != table ==> out.generatorCall.Some? && generated.Returns? && !faults.deleteFails
    ensures out.response.Generated? ==>
              && CanGenerate(jobs, user, jobId, sceneIndex) && generated.Returns?
              && out.response.shotCount == |out.response.shots|
              && (RequesterTier(user) == "free" ==>
                    |out.response.shots| == if |generated.value| > FreeShotLimit then FreeShotLimit else |generated.value|)
              && (RequesterTier(user) != "free" ==> |out.response.shots| == |generated.value|)
              && (out.response.warning.Some? <==> |out.response.shots| < |generated.value|)
              && (forall j, s :: ShotsFor(out.table, j, s)
                    == if j == jobId && s == sceneIndex then out.response.shots else ShotsFor(table, j, s))
    // the stored and returned rows are the records of the kept shots, built for
    // the caller and the requested scene, and the warning is the clamp's
    ensures out.response.Generated? ==>
              var limited := ApplyTierLimit(RequesterTier(user), generated.value);
              && out.response.shots == MakeRecords(limited.0, jobId, sceneIndex, RequesterId(user),
                                                   GenerateScenes(jobs[jobId].fullParseData).value[sceneIndex])
              && out.response.warning == limited.1
    // a job, data and scene that pass every check, a generator that answers and
    // store writes that succeed always give a success
    ensures (CanGenerate(jobs, user, jobId, sceneIndex) && generated.Returns?
             && !faults.deleteFails && !faults.createFails) ==> out.response.Generated?
    // a failed create after the delete leaves the scene without shots and every
    // other job's and scene's shots as they were
    ensures CanGenerate(jobs, user, jobId, sceneIndex) && generated.Returns? && !faults.deleteFails
            && faults.createFails ==>
              out.response == GenerateFailed(500, "Failed to generate shots")
              && ShotsFor(out.table, jobId, sceneIndex) == []
              && out.table == DeleteShots(table, jobId, sceneIndex)
  {
    if !Owns(jobs, jobId, user) then
      GenerateOutcome(GenerateFailed(404, JobNotFound), table, None)
    else
      match GenerateScenes(jobs[jobId].fullParseData)
      case None => GenerateOutcome(GenerateFailed(400, "Invalid parse data format"), table, None)
      case Some(scenes) =>
        if !(0 <= sceneIndex < |scenes|) then
          GenerateOutcome(GenerateFailed(404, "Scene not found"), table, None)
        else
          var scene := scenes[sceneIndex];
          var call := GeneratorCall(SceneText(scene), OrElse(scene.sceneHeading, ""), sceneIndex + 1);
          match generated
          case Throws => GenerateOutcome(GenerateFailed(500, "Failed to generate shots"), table, Some(call))
          case Returns(shots) =>
            var (kept, warning) := ApplyTierLimit(RequesterTier(user), shots);
            var rows := MakeRecords(kept, jobId, sceneIndex, RequesterId(user), scene);
            if faults.deleteFails then
              GenerateOutcome(GenerateFailed(500, "Failed to generate shots"), table, Some(call))
            else
              var cleared := DeleteShots(table, jobId, sceneIndex);
              ShotsForAfterDelete(table, jobId, sceneIndex, jobId, sceneIndex);
              if faults.createFails then
                GenerateOutcome(GenerateFailed(500, "Failed to generate shots"), cleared, Some(call))
              else
                assert forall j, s :: (ShotsFor(cleared + rows, j, s)
                  == if j == jobId && s == sceneIndex then rows else ShotsFor(table, j, s)) by {
                  forall j, s ensures ShotsFor(cleared + rows, j, s)
                    == if j == jobId && s == sceneIndex then rows else ShotsFor(table, j, s) {
                    ReplaceSceneShots(table, jobId, sceneIndex, rows, j, s);
                  }
                }
                GenerateOutcome(Generated(|rows|, rows, warning), cleared + rows, Some(call))
  }

  // ---------------------------------------------------------------------------
  // GET /shots/:jobId and GET /shots/:jobId/:sceneIndex
  // ---------------------------------------------------------------------------

  datatype ListResponse = ShotList(shots: seq<ShotRecord>) | ListFailed(status: int, error: string)

  /** Scenes of a parse job as the listing reads them: JSON text that does not
      parse is kept as a string, whose `scenes` is `undefined`, so it has none. */
  function ListingScenes(data: ParseData): seq<Scene> {
    match data
    case Structured(scenes) => scenes
    case JsonText(parsed) => if parsed.Some? then parsed.value else []
  }

  /** Shots of scenes `0 .. n-1` of a job, concatenated in ascending scene order,
      skipping the scenes whose fetch throws. */
  function AllSceneShots(table: seq<ShotRecord>, job: int, n: nat, failing: set<int>): seq<ShotRecord>
  {
    if n == 0 then []
    else
      AllSceneShots(table, job, n - 1, failing)
      + (if n - 1 in failing then [] else ShotsFor(table, job, n - 1))
  }

  /** The listing holds shots of the job only, from scenes below `n` whose fetch
      succeeded. */
  lemma {:induction false} AllSceneShotsBelong(table: seq<ShotRecord>, job: int, n: nat, failing: set<int>)
    ensures forall k :: 0 <= k < |AllSceneShots(table, job, n, failing)| ==>
              && AllSceneShots(table, job, n, failing)[k].parseJobId == job
              && 0 <= AllSceneShots(table, job, n, failing)[k].sceneIndex < n
              && AllSceneShots(table, job, n, failing)[k].sceneIndex !in failing
  {
    if n > 0 {
      AllSceneShotsBelong(table, job, n - 1, failing);
    }
  }

  /** The listing is in ascending scene order. */
  lemma {:induction false} AllSceneShotsOrdered(table: seq<ShotRecord>, job: int, n: nat, failing: set<int>)
    ensures forall a, b :: 0 <= a < b < |AllSceneShots(table, job, n, failing)| ==>
              AllSceneShots(table, job, n, failing)[a].sceneIndex
              <= AllSceneShots(table, job, n, failing)[b].sceneIndex
  {
    if n > 0 {
      AllSceneShotsOrdered(table, job, n - 1, failing);
      AllSceneShotsBelong(table, job, n - 1, failing);
      var prev := AllSceneShots(table, job, n - 1, failing);
      var last := if n - 1 in failing then [] else ShotsFor(table, job, n - 1);
      var r := prev + last;
      assert r == AllSceneShots(table, job, n, failing);
      forall a, b | 0 <= a < b < |r| ensures r[a].sceneIndex <= r[b].sceneIndex {
        if b < |prev| {
          assert r[a] == prev[a] && r[b] == prev[b];
        } else if a < |prev| {
          assert r[a] == prev[a] && r[b] == last[b - |prev|];
        } else {
          assert r[a] == last[a - |prev|] && r[b] == last[b - |prev|];
        }
      }
    }
  }

  /** The listing holds every row of every scene below `n` whose fetch succeeded. */
  lemma {:induction false} AllSceneShotsComplete(table: seq<ShotRecord>, job: int, n: nat, failing: set<int>,
                                                 x: ShotRecord)
    requires x in table && x.parseJobId == job && 0 <= x.sceneIndex < n && x.sceneIndex !in failing
    ensures x in AllSceneShots(table, job, n, failing)
  {
    if x.sceneIndex == n - 1 {
      ShotsForContains(table, job, n - 1, x);
    } else {
      AllSceneShotsComplete(table, job, n - 1, failing, x);
    }
  }

  lemma {:induction false} ShotsForContains(table: seq<ShotRecord>, job: int, scene: int, x: ShotRecord)
    requires x in table && At(x, job, scene)
    ensures x in ShotsFor(table, job, scene)
  {
    if table[0] != x {
      ShotsForContains(table[1..], job, scene, x);
    }
  }

  /** `GET /shots/:jobId`. `failing` holds the scene indices whose fetch throws. */
  method ListAllShots(jobs: map<int, ParseJob>, table: seq<ShotRecord>, user: Requester,
                      jobId: int, failing: set<int>) returns (res: ListResponse)
    ensures !Owns(jobs, jobId, user) ==> res == ListFailed(404, JobNotFound)
    ensures Owns(jobs, jobId, user) ==>
              res == ShotList(AllSceneShots(table, jobId, |ListingScenes(jobs[jobId].fullParseData)|, failing))
    // unparseable JSON text lists nothing instead of failing
    ensures Owns(jobs, jobId, user) && jobs[jobId].fullParseData == JsonText(None) ==> res == ShotList([])
  {
    if !Owns(jobs, jobId, user) {
      return ListFailed(404, JobNotFound);
    }
    var scenes := ListingScenes(jobs[jobId].fullParseData);
    var all: seq<ShotRecord> := [];
    var i := 0;
    while i < |scenes|
      invariant 0 <= i <= |scenes|
      invariant all == AllSceneShots(table, jobId, i, failing)
    {
      if i !in failing {
        all := all + ShotsFor(table, jobId, i);
      }
      i := i + 1;
    }
    return ShotList(all);
  }

  /** `GET /shots/:jobId/:sceneIndex`. `fetchFails` says whether the store's
      read of the scene's rows throws. */
  function ListSceneShots(jobs: map<int, ParseJob>, table: seq<ShotRecord>, user: Requester,
                          jobId: int, sceneIndex: int, fetchFails: bool): (res: ListResponse)
    ensures !Owns(jobs, jobId, user) ==> res == ListFailed(404, JobNotFound)
    ensures Owns(jobs, jobId, user) && fetchFails ==> res == ListFailed(500, "Failed to get shots")
    // the store's answer is passed through: the rows of that scene, in table order
    ensures Owns(jobs, jobId, user) && !fetchFails ==> res == ShotList(ShotsFor(table, jobId, sceneIndex))
    ensures res.ShotList? ==> forall k :: 0 <= k < |res.shots| ==> At(res.shots[k], jobId, sceneIndex)
    ensures res.ShotList? ==> forall x :: x in table && At(x, jobId, sceneIndex) ==> x in res.shots
  {
    if !Owns(jobs, jobId, user) then ListFailed(404, JobNotFound)
    else if fetchFails then ListFailed(500, "Failed to get shots")
    else
      assert forall x :: x in table && At(x, jobId, sceneIndex) ==> x in ShotsFor(table, jobId, sceneIndex) by {
        forall x | x in table && At(x, jobId, sceneIndex) ensures x in ShotsFor(table, jobId, sceneIndex) {
          ShotsForContains(table, jobId, sceneIndex, x);
        }
      }
      ShotList(ShotsFor(table, jobId, sceneIndex))
  }

  /** After a successful generation, listing that scene returns exactly the
      generated response's shots. */
  lemma GenerateThenList(jobs: map<int, ParseJob>, table: seq<ShotRecord>, user: Requester,
                         jobId: int, sceneIndex: int, generated: Reply<seq<GeneratedShot>>,
                         faults: WriteFaults)
    requires GenerateShots(jobs, table, user, jobId, sceneIndex, generated, faults).response.Generated?
    ensures var out := GenerateShots(jobs, table, user, jobId, sceneIndex, generated, faults);
            ListSceneShots(jobs, out.table, user, jobId, sceneIndex, false) == ShotList(out.response.shots)
  {
  }

  // ---------------------------------------------------------------------------
  // GET /jobs/:jobId — scenes with the per-job cache
  // ---------------------------------------------------------------------------

  datatype ScenesResponse = SceneList(scenes: seq<Scene>) | ScenesFailed(status: int, error: string)

  datatype ScenesOutcome = ScenesOutcome(
    response: ScenesResponse,
    cache: map<string, seq<Scene>>,
    extracted: bool)

  /** Cache key, built from the job id text of the URL. */
  function CacheKey(jobParam: string): string {
    "job_" + jobParam + "_scenes"
  }

  /** A miss whose script exists and has content: the case that calls the extractor. */
  predicate NeedsExtraction(jobs: map<int, ParseJob>, scripts: map<int, Script>, cache: map<string, seq<Scene>>,
                            user: Requester, jobParam: string, jobId: int) {
    && Owns(jobs, jobId, user)
    && CacheKey(jobParam) !in cache
    && jobs[jobId].scriptId in scripts
    && Truthy(scripts[jobs[jobId].scriptId].content)
  }

  /** `jobParam` is the URL text and `jobId` its `parseInt`; `extraction` is what
      the scene extractor answers for the script's content. `extracted` records
      that an extraction was stored in the cache. */
  function GetScenes(jobs: map<int, ParseJob>, scripts: map<int, Script>, cache: map<string, seq<Scene>>,
                     user: Requester, jobParam: string, jobId: int, extraction: Reply<seq<Scene>>): (out: ScenesOutcome)
    ensures !Owns(jobs, jobId, user) ==>
              out == ScenesOutcome(ScenesFailed(404, JobNotFound), cache, false)
    // a cached entry is served as is, without extraction
    ensures Owns(jobs, jobId, user) && CacheKey(jobParam) in cache ==>
              out == ScenesOutcome(SceneList(cache[CacheKey(jobParam)]), cache, false)
    // a miss needs the script and its content
    ensures Owns(jobs, jobId, user) && CacheKey(jobParam) !in cache && jobs[jobId].scriptId !in scripts ==>
              out == ScenesOutcome(ScenesFailed(404, "Script not found"), cache, false)
    ensures Owns(jobs, jobId, user) && CacheKey(jobParam) !in cache && jobs[jobId].scriptId in scripts
            && !Truthy(scripts[jobs[jobId].scriptId].content) ==>
              out == ScenesOutcome(ScenesFailed(400, "Script content is empty"), cache, false)
    // an extractor that throws is a 500 and nothing is cached
    ensures NeedsExtraction(jobs, scripts, cache, user, jobParam, jobId) && extraction.Throws? ==>
              out == ScenesOutcome(ScenesFailed(500, "Failed to get scenes"), cache, false)
    // extraction is stored at most once per key: only on a miss, and its result is cached
    ensures out.extracted <==> NeedsExtraction(jobs, scripts, cache, user, jobParam, jobId) && extraction.Returns?
    ensures out.extracted ==>
              && out.cache == cache[CacheKey(jobParam) := extraction.value]
              && out.response == SceneList(extraction.value)
    ensures !out.extracted ==> out.cache == cache
  {
    var key := CacheKey(jobParam);
    if !Owns(jobs, jobId, user) then ScenesOutcome(ScenesFailed(404, JobNotFound), cache, false)
    else if key in cache then ScenesOutcome(SceneList(cache[key]), cache, false)
    else
      var scriptId := jobs[jobId].scriptId;
      if scriptId !in scripts then ScenesOutcome(ScenesFailed(404, "Script not found"), cache, false)
      else if !Truthy(scripts[scriptId].content) then
        ScenesOutcome(ScenesFailed(400, "Script content is empty"), cache, false)
      else
        match extraction
        case Throws => ScenesOutcome(ScenesFailed(500, "Failed to get scenes"), cache, false)
        case Returns(scenes) => ScenesOutcome(SceneList(scenes), cache[key := scenes], true)
  }

  /** Once a request has extracted and cached a job's scenes, a later request for
      the same key gets the same scenes without extraction, whatever the scripts
      or the extractor would now say. */
  lemma CachedScenesStable(jobs: map<int, ParseJob>, scripts: map<int, Script>, cache: map<string, seq<Scene>>,
                           user: Requester, jobParam: string, jobId: int, extraction: Reply<seq<Scene>>,
                           scripts': map<int, Script>, extraction': Reply<seq<Scene>>)
    requires GetScenes(jobs, scripts, cache, user, jobParam, jobId, extraction).extracted
    ensures var first := GetScenes(jobs, scripts, cache, user, jobParam, jobId, extraction);
            var second := GetScenes(jobs, scripts', first.cache, user, jobParam, jobId, extraction');
            && !second.extracted
            && second.response == first.response
            && second.cache == first.cache
  {
  }

  // ---------------------------------------------------------------------------
  // GET /usage-stats
  // ---------------------------------------------------------------------------

  datatype UsageResponse<Q> = Usage(quota: Q, tier: string, userId: string) | UsageFailed(status: int, error: string)

  /** `quota` is the quota manager's answer for the caller's id and tier. */
  function UsageStats<Q>(user: Requester, quota: Reply<Q>): (res: UsageResponse<Q>)
    ensures !Truthy(RequesterId(user)) ==> res == UsageFailed(401, "Authentication required")
    // an identified caller gets the quota manager's answer with its id and tier,
    // or a 500 when the quota manager throws
    ensures Truthy(RequesterId(user)) && quota.Returns? ==>
              res == Usage(quota.value, RequesterTier(user), RequesterId(user).value)
    ensures Truthy(RequesterId(user)) && quota.Throws? ==>
              res == UsageFailed(500, "Failed to get usage statistics")
    ensures res.Usage? ==> Truthy(RequesterId(user)) && res.userId == RequesterId(user).value
                           && res.tier == RequesterTier(user) && res.tier != ""
  {
    if !Truthy(RequesterId(user)) then UsageFailed(401, "Authentication required")
    else
      match quota
      case Throws => UsageFailed(500, "Failed to get usage statistics")
      case Returns(q) => Usage(q, RequesterTier(user), RequesterId(user).value)
  }
}

=== FILE: server.dfy ===
/** The two pieces of the Express server set up in `server/index.ts`
    that every route goes through: the request-logging middleware, which
    writes one line per `/api` request, and the final error handler, which
    turns a thrown error into a JSON reply. */
module Server {
  import opened JsValues
  import opened Json

  /** The longest log line the middleware writes. */
  const MaxLogLine: nat := 80

  /** The character the middleware puts in place of the cut-off tail. */
  const Ellipsis: char := '\U{2026}'

  /** What the middleware sees of a finished request. `captured` is the
      value the route last passed to `res.json`, or `None` if it never did. */
  datatype Finished = Finished(
    httpMethod: string,
    path: string,
    statusCode: int,
    durationMs: int,
    captured: Option<Json>)

  /** Only requests under `/api` are logged. */
  predicate Logged(path: string) {
    StartsWith(path, "/api")
  }

  /** Shortens a line longer than 80 characters to its first 79 and an ellipsis. */
  function Truncate(line: string): (r: string)
    ensures |r| <= MaxLogLine
    ensures |line| <= MaxLogLine <==> r == line
    ensures |line| > MaxLogLine ==> |r| == MaxLogLine && r[..79] == line[..79] && r[79] == Ellipsis
  {
    if |line| > MaxLogLine then line[..79] + [Ellipsis] else line
  }

  /** The line before shortening: `<method> <path> <status> in <ms>ms`,
      followed by ` :: <JSON>` when the captured body is truthy. */
  function FullLine(f: Finished): (line: string)
    ensures StartsWith(line, f.httpMethod + " " + f.path + " ")
    // the status and the duration follow the path
    ensures var head := f.httpMethod + " " + f.path + " " + IntToString(f.statusCode)
              + " in " + IntToString(f.durationMs) + "ms";
            |head| <= |line| && line[..|head|] == head
    // without a truthy captured body the line is that and nothing more
    ensures var head := f.httpMethod + " " + f.path + " " + IntToString(f.statusCode)
              + " in " + IntToString(f.durationMs) + "ms";
            !(f.captured.Some? && JsonTruthy(f.captured.value)) ==> line == head
    // with one, only the separator and the body's JSON follow
    ensures var head := f.httpMethod + " " + f.path + " " + IntToString(f.statusCode)
              + " in " + IntToString(f.durationMs) + "ms";
            f.captured.Some? && JsonTruthy(f.captured.value) ==> |line| == |head| + 4 + |Stringify(f.captured.value)|
  {
    var head := f.httpMethod + " " + f.path + " " + IntToString(f.statusCode)
      + " in " + IntToString(f.durationMs) + "ms";
    assert head[..|f.httpMethod + " " + f.path + " "|] == f.httpMethod + " " + f.path + " ";
    if f.captured.Some? && JsonTruthy(f.captured.value) then
      var line := head + " :: " + Stringify(f.captured.value);
      assert line[..|head|] == head;
      line
    else head
  }

  /** The line the middleware writes for a finished request, if any. */
  function LogLine(f: Finished): (r: Option<string>)
    ensures r.Some? <==> Logged(f.path)
    ensures r.Some? ==> |r.value| <= MaxLogLine
    ensures r.Some? && |FullLine(f)| <= MaxLogLine ==> r.value == FullLine(f)
    ensures r.Some? && |FullLine(f)| > MaxLogLine ==>
      |r.value| == MaxLogLine && r.value[..79] == FullLine(f)[..79] && r.value[79] == Ellipsis
  {
    if Logged(f.path) then Some(Truncate(FullLine(f))) else None
  }

  /** Shortening an already short line changes nothing, so it is idempotent. */
  lemma TruncateIdempotent(line: string)
    ensures Truncate(Truncate(line)) == Truncate(line)
  {
  }

  /** Whatever the length, the written line agrees with the full line on
      every position it keeps. */
  lemma TruncateKeepsPrefix(line: string, k: nat)
    requires k < |Truncate(line)| && k < 79
    ensures Truncate(line)[k] == line[k]
  {
    if |line| > MaxLogLine {
      assert Truncate(line)[k] == Truncate(line)[..79][k];
    }
  }

  /** A route that replied with a falsy value (or never called `res.json`)
      gets no ` :: ` suffix; a truthy one gets its JSON text appended. */
  lemma BodySuffix(f: Finished)
    ensures (f.captured.None? || !JsonTruthy(f.captured.value)) ==>
      FullLine(f) == FullLine(f.(captured := None))
    ensures f.captured.Some? && JsonTruthy(f.captured.value) ==>
      var suffix := " :: " + Stringify(f.captured.value);
      |FullLine(f)| > |suffix| && FullLine(f)[|FullLine(f)| - |suffix|..] == suffix
  {
  }

  /** When the method and path carry no control characters, the written
      line is a single line: the status, duration and JSON text never
      introduce a line break. */
  lemma LogLineSingleLine(f: Finished)
    requires NoControl(f.httpMethod) && NoControl(f.path)
    requires Logged(f.path)
    ensures NoControl(LogLine(f).value)
  {
    NoControlDecimal(f.statusCode);
    NoControlDecimal(f.durationMs);
    var line := FullLine(f);
    assert NoControl(line);
    var r := LogLine(f).value;
    forall k | 0 <= k < |r| ensures !IsControl(r[k]) {
      if |line| > MaxLogLine && k < 79 {
        assert r[k] == r[..79][k] == line[..79][k];
      }
    }
  }

  lemma NoControlDecimal(n: int)
    ensures NoControl(IntToString(n))
  {
    IntToStringRoundTrip(n);
    var s := IntToString(n);
    forall k | 0 <= k < |s| ensures !IsControl(s[k]) {
      if s[0] == '-' && k > 0 { assert s[k] == s[1..][k - 1]; }
    }
  }

  // ---------------------------------------------------------------------------
  // Error handler
  // ---------------------------------------------------------------------------

  /** The parts of a thrown error the handler reads. */
  datatype ThrownError = ThrownError(
    status: Option<int>,
    statusCode: Option<int>,
    message: Option<string>)

  /** The reply: HTTP status and the `{ message }` body, plus the log line. */
  datatype ErrorReply = ErrorReply(status: int, message: string, logText: string)

  /** `err.status || err.statusCode || 500`, `err.message || "Internal Server Error"`. */
  function HandleError(err: ThrownError): (r: ErrorReply)
    // a truthy `status` wins; otherwise a truthy `statusCode`; otherwise 500
    ensures TruthyInt(err.status) ==> r.status == err.status.value
    ensures !TruthyInt(err.status) && TruthyInt(err.statusCode) ==> r.status == err.statusCode.value
    ensures !TruthyInt(err.status) && !TruthyInt(err.statusCode) ==> r.status == 500
    // the reply never carries the falsy status 0 or an empty message
    ensures r.status != 0
    ensures r.message != ""
    ensures Truthy(err.message) ==> r.message == err.message.value
    ensures !Truthy(err.message) ==> r.message == "Internal Server Error"
    ensures r.logText == "Error " + IntToString(r.status) + ": " + r.message
  {
    var status := OrElseInt(err.status, OrElseInt(err.statusCode, 500));
    var message := OrElse(err.message, "Internal Server Error");
    ErrorReply(status, message, "Error " + IntToString(status) + ": " + message)
  }

  /** An error with `status: 0` is treated like one with no status at all. */
  lemma ZeroStatusFallsThrough(statusCode: Option<int>, message: Option<string>)
    ensures HandleError(ThrownError(Some(0), statusCode, message)).status
         == HandleError(ThrownError(None, statusCode, message)).status
  {
  }

  /** The status the handler sends is always one the error carried or 500. */
  lemma StatusFromError(err: ThrownError)
    ensures var s := HandleError(err).status;
      s == 500 || (err.status == Some(s)) || (err.statusCode == Some(s))
  {
  }
}

=== FILE: uri_encoding.dfy ===
/** `encodeURIComponent` and its reading partner `decodeURIComponent`, as
    defined in section 19.2.6 of ECMA-262: every character outside the
    unreserved set is written as the `%XY` escapes of its UTF-8 bytes, with
    upper-case hexadecimal digits.

    Characters are Unicode scalar values, so the lone surrogates on which
    `encodeURIComponent` throws do not arise. */
module UriEncoding {
  import opened JsValues

  type Byte = b: int | 0 <= b < 256

  /** The characters `encodeURIComponent` copies through unchanged. */
  predicate Unreserved(c: char) {
    || ('A' <= c <= 'Z') || ('a' <= c <= 'z') || ('0' <= c <= '9')
    || c == '-' || c == '_' || c == '.' || c == '!' || c == '~'
    || c == '*' || c == '\'' || c == '(' || c == ')'
  }

  predicate IsHexDigit(c: char) {
    ('0' <= c <= '9') || ('A' <= c <= 'F') || ('a' <= c <= 'f')
  }

  /** A character that can appear in an encoded component. */
  predicate UrlSafe(c: char) {
    Unreserved(c) || c == '%'
  }

  function HexDigit(d: nat): (c: char)
    requires d < 16
    ensures IsHexDigit(c) && Unreserved(c)
  {
    "0123456789ABCDEF"[d]
  }

  /** Value of a hexadecimal digit of either case. */
  function HexValue(c: char): (d: nat)
    requires IsHexDigit(c)
    ensures d < 16
  {
    if '0' <= c <= '9' then (c - '0') as nat
    else if 'A' <= c <= 'F' then (c - 'A') as nat + 10
    else (c - 'a') as nat + 10
  }

  lemma HexValueOfDigit(d: nat)
    requires d < 16
    ensures HexValue(HexDigit(d)) == d
  {
  }

  // ---------------------------------------------------------------------------
  // Encoding
  // ---------------------------------------------------------------------------

  /** A value below 2^24 as four groups of six bits, most significant first. */
  datatype Groups = Groups(g0: nat, g1: nat, g2: nat, g3: nat)

  function SixBitGroups(n: nat): (g: Groups)
    ensures g.g1 < 64 && g.g2 < 64 && g.g3 < 64
    ensures n == g.g0 * 262144 + g.g1 * 4096 + g.g2 * 64 + g.g3
  {
    Split262144(n);
    Groups(n / 262144, (n / 4096) % 64, (n / 64) % 64, n % 64)
  }

  /** The UTF-8 bytes of a scalar value. */
  function Utf8(c: char): (bs: seq<Byte>)
    ensures 1 <= |bs| <= 4
  {
    var n := c as int;
    var g := SixBitGroups(n);
    if n < 0x80 then [n]
    else if n < 0x800 then [0xC0 + g.g2, 0x80 + g.g3]
    else if n < 0x1_0000 then [0xE0 + g.g1, 0x80 + g.g2, 0x80 + g.g3]
    else [0xF0 + g.g0, 0x80 + g.g1, 0x80 + g.g2, 0x80 + g.g3]
  }

  /** `%XY` for one byte. */
  function Escape(b: Byte): (e: string)
    ensures |e| == 3 && e[0] == '%' && IsHexDigit(e[1]) && IsHexDigit(e[2])
  {
    ['%', HexDigit(b / 16), HexDigit(b % 16)]
  }

  function EscapeAll(bs: seq<Byte>): (e: string)
    ensures |e| == 3 * |bs|
  {
    if |bs| == 0 then "" else Escape(bs[0]) + EscapeAll(bs[1..])
  }

  lemma {:induction false} EscapeAllSafe(bs: seq<Byte>)
    ensures forall k :: 0 <= k < |EscapeAll(bs)| ==> UrlSafe(EscapeAll(bs)[k])
  {
    if |bs| > 0 {
      EscapeAllSafe(bs[1..]);
      var e := EscapeAll(bs);
      assert e == Escape(bs[0]) + EscapeAll(bs[1..]);
      forall k | 0 <= k < |e|
        ensures UrlSafe(e[k])
      {
        if k >= 3 {
          assert e[k] == EscapeAll(bs[1..])[k - 3];
        }
      }
    }
  }

  /** The encoding of one character. */
  function EncodeChar(c: char): (e: string)
    ensures 1 <= |e|
    ensures forall k :: 0 <= k < |e| ==> UrlSafe(e[k])
    ensures Unreserved(c) <==> e == [c]
  {
    if Unreserved(c) then [c] else EscapeAllSafe(Utf8(c)); EscapeAll(Utf8(c))
  }

  /** `encodeURIComponent(s)`. */
  function EncodeURIComponent(s: string): (r: string)
    ensures |r| >= |s|
    // the result holds no query or fragment delimiter (`&`, `=`, `#`, `?`, ...)
    ensures forall k :: 0 <= k < |r| ==> UrlSafe(r[k])
  {
    if |s| == 0 then "" else EncodeChar(s[0]) + EncodeURIComponent(s[1..])
  }

  // ---------------------------------------------------------------------------
  // Decoding
  // ---------------------------------------------------------------------------

  /** The byte written as `%XY` at position `i`, if there is one. */
  function ReadByte(t: string, i: nat): Option<Byte> {
    if i + 3 <= |t| && t[i] == '%' && IsHexDigit(t[i + 1]) && IsHexDigit(t[i + 2])
    then Some(16 * HexValue(t[i + 1]) + HexValue(t[i + 2]))
    else None
  }

  /** A UTF-8 continuation byte (`10xxxxxx`) written at position `i`, as its six payload bits. */
  function ReadContinuation(t: string, i: nat): Option<nat> {
    match ReadByte(t, i)
    case Some(b) => if 0x80 <= b < 0xC0 then Some(b - 0x80) else None
    case None => None
  }

  /** Decodes the character at the front of `t`, with the number of characters
      it occupies. `None` is the `URIError` of a malformed escape, a malformed or
      overlong UTF-8 sequence, a surrogate or a value beyond U+10FFFF. */
  function DecodeOne(t: string): (r: Option<(char, nat)>)
    requires |t| > 0
    ensures r.Some? ==> 1 <= r.value.1 <= |t|
  {
    if t[0] != '%' then Some((t[0], 1))
    else match ReadByte(t, 0)
      case None => None
      case Some(b0) =>
        if b0 < 0x80 then Some((b0 as char, 3))
        else if 0xC2 <= b0 < 0xE0 then
          match ReadContinuation(t, 3)
          case None => None
          case Some(p1) => Some((((b0 - 0xC0) * 64 + p1) as char, 6))
        else if 0xE0 <= b0 < 0xF0 then
          match (ReadContinuation(t, 3), ReadContinuation(t, 6))
          case (Some(p1), Some(p2)) =>
            var cp := (b0 - 0xE0) * 4096 + p1 * 64 + p2;
            if cp < 0x800 || (0xD800 <= cp < 0xE000) then None else Some((cp as char, 9))
          case _ => None
        else if 0xF0 <= b0 < 0xF5 then
          match (ReadContinuation(t, 3), ReadContinuation(t, 6), ReadContinuation(t, 9))
          case (Some(p1), Some(p2), Some(p3)) =>
            var cp := (b0 - 0xF0) * 262144 + p1 * 4096 + p2 * 64 + p3;
            if cp < 0x1_0000 || cp > 0x10_FFFF then None else Some((cp as char, 12))
          case _ => None
        else None
  }

  /** `decodeURIComponent(t)`; `None` when it throws `URIError`. */
  function DecodeURIComponent(t: string): Option<string>
    decreases |t|
  {
    if |t| == 0 then Some("")
    else match DecodeOne(t)
      case None => None
      case Some((c, k)) =>
        match DecodeURIComponent(t[k..])
        case None => None
        case Some(rest) => Some([c] + rest)
  }

  // ---------------------------------------------------------------------------
  // Round trip
  // ---------------------------------------------------------------------------

  lemma EscapeValue(b: Byte)
    ensures 16 * HexValue(Escape(b)[1]) + HexValue(Escape(b)[2]) == b
  {
    HexValueOfDigit(b / 16);
    HexValueOfDigit(b % 16);
  }

  /** An escape found at position `j` reads back as its byte. */
  lemma ReadEscapeAt(t: string, j: nat, b: Byte)
    requires j + 3 <= |t| && t[j..j + 3] == Escape(b)
    ensures ReadByte(t, j) == Some(b)
  {
    var e := Escape(b);
    assert t[j] == e[0] && t[j + 1] == e[1] && t[j + 2] == e[2] by {
      assert t[j..j + 3][0] == t[j];
      assert t[j..j + 3][1] == t[j + 1];
      assert t[j..j + 3][2] == t[j + 2];
    }
    EscapeValue(b);
  }

  lemma ReadEscape(bs: seq<Byte>, rest: string, i: nat)
    requires i < |bs|
    ensures ReadByte(EscapeAll(bs) + rest, 3 * i) == Some(bs[i])
  {
    var e := EscapeAll(bs);
    var j := 3 * i;
    EscapeAt(bs, i);
    SliceOfPrefix(e, rest, j, j + 3);
    ReadEscapeAt(e + rest, j, bs[i]);
  }

  /** A slice that lies within the first part of a concatenation. */
  lemma SliceOfPrefix<T>(a: seq<T>, b: seq<T>, lo: nat, hi: nat)
    requires lo <= hi <= |a|
    ensures (a + b)[lo..hi] == a[lo..hi]
  {
  }

  lemma {:induction false} EscapeAt(bs: seq<Byte>, i: nat)
    requires i < |bs|
    ensures EscapeAll(bs)[3 * i..3 * i + 3] == Escape(bs[i])
  {
    var e := EscapeAll(bs);
    assert e == Escape(bs[0]) + EscapeAll(bs[1..]);
    if i > 0 {
      EscapeAt(bs[1..], i - 1);
      assert e[3 * i..3 * i + 3] == EscapeAll(bs[1..])[3 * (i - 1)..3 * (i - 1) + 3];
    }
  }

  /** The three payload bit groups of a value below 2^18 put back together. */
  lemma Split64(n: nat)
    ensures n == (n / 4096) * 4096 + ((n / 64) % 64) * 64 + n % 64
  {
    var m := n / 64;
    assert n == m * 64 + n % 64;
    assert m == (m / 64) * 64 + m % 64;
    assert n / 4096 == m / 64;
  }

  lemma Split262144(n: nat)
    ensures n == (n / 262144) * 262144 + ((n / 4096) % 64) * 4096 + ((n / 64) % 64) * 64 + n % 64
  {
    var m := n / 4096;
    Split64(n);
    assert n / 4096 == (n / 4096 / 64) * 64 + m % 64;
    assert n / 262144 == m / 64;
  }

  lemma DecodeOneOfOne(t: string, n: nat)
    requires n < 0x80 && ReadByte(t, 0) == Some(n)
    ensures DecodeOne(t) == Some((n as char, 3))
  {
  }

  lemma DecodeOneOfTwo(t: string, n: nat, g: Groups)
    requires 0x80 <= n < 0x800 && g == SixBitGroups(n)
    requires ReadByte(t, 0) == Some(0xC0 + g.g2) && ReadByte(t, 3) == Some(0x80 + g.g3)
    ensures DecodeOne(t) == Some((n as char, 6))
  {
    assert ReadContinuation(t, 3) == Some(g.g3);
  }

  lemma DecodeOneOfThree(t: string, n: nat, g: Groups)
    requires 0x800 <= n < 0x1_0000 && !(0xD800 <= n < 0xE000) && g == SixBitGroups(n)
    requires ReadByte(t, 0) == Some(0xE0 + g.g1)
    requires ReadByte(t, 3) == Some(0x80 + g.g2) && ReadByte(t, 6) == Some(0x80 + g.g3)
    ensures DecodeOne(t) == Some((n as char, 9))
  {
    assert ReadContinuation(t, 3) == Some(g.g2);
    assert ReadContinuation(t, 6) == Some(g.g3);
  }

  lemma DecodeOneOfFour(t: string, n: nat, g: Groups)
    requires 0x1_0000 <= n <= 0x10_FFFF && g == SixBitGroups(n)
    requires ReadByte(t, 0) == Some(0xF0 + g.g0) && ReadByte(t, 3) == Some(0x80 + g.g1)
    requires ReadByte(t, 6) == Some(0x80 + g.g2) && ReadByte(t, 9) == Some(0x80 + g.g3)
    ensures DecodeOne(t) == Some((n as char, 12))
  {
    assert ReadContinuation(t, 3) == Some(g.g1);
    assert ReadContinuation(t, 6) == Some(g.g2);
    assert ReadContinuation(t, 9) == Some(g.g3);
  }

  /** The escaped UTF-8 bytes of a character decode back to it. */
  lemma DecodeOneEscaped(c: char, rest: string)
    ensures DecodeOne(EscapeAll(Utf8(c)) + rest) == Some((c, 3 * |Utf8(c)|))
  {
    var n := c as int;
    if n < 0x80 {
      DecodeEscaped1(c, rest);
    } else if n < 0x800 {
      DecodeEscaped2(c, rest);
    } else if n < 0x1_0000 {
      DecodeEscaped3(c, rest);
    } else {
      DecodeEscaped4(c, rest);
    }
  }

  lemma DecodeEscaped1(c: char, rest: string)
    requires c as int < 0x80
    ensures |Utf8(c)| == 1
    ensures DecodeOne(EscapeAll(Utf8(c)) + rest) == Some((c, 3))
  {
    var bs := Utf8(c);
    ReadEscape(bs, rest, 0);
    DecodeOneOfOne(EscapeAll(bs) + rest, c as int);
  }

  lemma DecodeEscaped2(c: char, rest: string)
    requires 0x80 <= c as int < 0x800
    ensures |Utf8(c)| == 2
    ensures DecodeOne(EscapeAll(Utf8(c)) + rest) == Some((c, 6))
  {
    var n := c as int;
    var g := SixBitGroups(n);
    var bs := Utf8(c);
    assert bs == [0xC0 + g.g2, 0x80 + g.g3];
    var t := EscapeAll(bs) + rest;
    assert ReadByte(t, 0) == Some(0xC0 + g.g2) by { ReadEscape(bs, rest, 0); }
    assert ReadByte(t, 3) == Some(0x80 + g.g3) by { ReadEscape(bs, rest, 1); }
    DecodeOneOfTwo(t, n, g);
  }

  lemma DecodeEscaped3(c: char, rest: string)
    requires 0x800 <= c as int < 0x1_0000
    ensures |Utf8(c)| == 3
    ensures DecodeOne(EscapeAll(Utf8(c)) + rest) == Some((c, 9))
  {
    var n := c as int;
    var g := SixBitGroups(n);
    var bs := Utf8(c);
    assert bs == [0xE0 + g.g1, 0x80 + g.g2, 0x80 + g.g3];
    var t := EscapeAll(bs) + rest;
    assert ReadByte(t, 0) == Some(0xE0 + g.g1) by { ReadEscape(bs, rest, 0); }
    assert ReadByte(t, 3) == Some(0x80 + g.g2) by { ReadEscape(bs, rest, 1); }
    assert ReadByte(t, 6) == Some(0x80 + g.g3) by { ReadEscape(bs, rest, 2); }
    DecodeOneOfThree(t, n, g);
  }

  lemma DecodeEscaped4(c: char, rest: string)
    requires 0x1_0000 <= c as int
    ensures |Utf8(c)| == 4
    ensures DecodeOne(EscapeAll(Utf8(c)) + rest) == Some((c, 12))
  {
    var n := c as int;
    var g := SixBitGroups(n);
    var bs := Utf8(c);
    assert bs == [0xF0 + g.g0, 0x80 + g.g1, 0x80 + g.g2, 0x80 + g.g3];
    var t := EscapeAll(bs) + rest;
    assert ReadByte(t, 0) == Some(0xF0 + g.g0) by { ReadEscape(bs, rest, 0); }
    assert ReadByte(t, 3) == Some(0x80 + g.g1) by { ReadEscape(bs, rest, 1); }
    assert ReadByte(t, 6) == Some(0x80 + g.g2) by { ReadEscape(bs, rest, 2); }
    assert ReadByte(t, 9) == Some(0x80 + g.g3) by { ReadEscape(bs, rest, 3); }
    DecodeOneOfFour(t, n, g);
  }

  lemma DecodeOneEncodeChar(c: char, rest: string)
    ensures DecodeOne(EncodeChar(c) + rest) == Some((c, |EncodeChar(c)|))
  {
    if !Unreserved(c) {
      DecodeOneEscaped(c, rest);
    }
  }

  /** Decoding an encoded component gives the component back. */
  lemma {:induction false} EncodeDecodeRoundTrip(s: string)
    ensures DecodeURIComponent(EncodeURIComponent(s)) == Some(s)
  {
    if |s| > 0 {
      var e := EncodeChar(s[0]);
      var t := EncodeURIComponent(s);
      assert t == e + EncodeURIComponent(s[1..]);
      DecodeOneEncodeChar(s[0], EncodeURIComponent(s[1..]));
      assert t[|e|..] == EncodeURIComponent(s[1..]);
      EncodeDecodeRoundTrip(s[1..]);
      assert s == [s[0]] + s[1..];
    }
  }

  /** Distinct components have distinct encodings. */
  lemma EncodeInjective(s: string, s': string)
    requires EncodeURIComponent(s) == EncodeURIComponent(s')
    ensures s == s'
  {
    EncodeDecodeRoundTrip(s);
    EncodeDecodeRoundTrip(s');
  }
}
